=== FILE: README.md ===
# Check-in service and SSD1306 driver, modelled in Dafny

This project models the core of a small presence ("check-in") service that
runs on a Raspberry Pi Pico W, together with the SSD1306 OLED driver the
board uses. The service answers HTTP requests from a Wi-Fi access point.

**Presence store.** The store keeps four presence flags for the users JOAO,
MARIA, CARLOS and VISITANTE. It also keeps a 20-slot log of 64-byte text
lines with a write cursor, and an RGB status LED that is green while anyone
is present. The store is modelled as the class
`CheckinStore.CheckinService`; its fields are the C statics. Each method is
proved against a function on an abstract `Presence` value:

- `toggle_checkin` is `ToggleSpec`;
- `clear_log` is `CLEARED`;
- `create_html_page` is `PageFor`.

**Receive handler.** `http_callback` is the method `CheckinHttp.HttpRecv`,
and its steps are modelled in order:

1. copy the received data into the 1024-byte request buffer;
2. take the first line with `strtok`, cut to 255 characters;
3. drop anything that is not a `GET`;
4. answer 404 to everything except the index page and the `user=` / `clear=`
   parameters;
5. clear the log, or toggle the user named by `extract_parameter`;
6. send the page.

The connection is a `TcpPcb` object that records what is written to it and
whether it was closed. The received buffer chain is a `Pbuf` object that
counts how often it was released.

**SSD1306 driver.**

- The I2C bus is the list of writes made on it. `CommandStream` shows what
  the controller decodes from those writes.
- The framebuffer is the `array` of a `Ssd1306.Display`, and byte 0 holds
  the data control byte.
- `WriteChar` and `ssd1306_draw_string` are proved against the functions
  `PutGlyph` and `Drawn`. Lemmas then establish three facts about drawing:
  - for scale >= 1, every on-screen glyph is intact once the whole string
    is drawn (at scale 0 every character goes to the same cell, so only the
    last one survives);
  - characters past the right edge are dropped, not wrapped;
  - bytes before the first glyph are untouched.

**Where the model follows the code, not what a reader might expect.**
The model does what the code does, in three places where a reader could
reasonably expect something else:

- **Closing the connection.** The page reply carries no `Content-Length`.
  Under section 6.3 of RFC 9112, a client can then find the end of the
  page only when the server closes the connection, so a close after the
  reply would be expected. The code closes the connection
  only when the peer has closed it (a null buffer chain). `HttpRecv`
  states that every other path leaves the connection open, the 404 path
  included.
- **Log order on the page.** A log kept in a circular buffer would be
  expected to be read from the cursor on, so that the page shows the five
  newest lines, oldest first. The code lists the last five non-empty slots
  in slot order. So once the log is full, the newest entry can be missing
  from the page: this happens whenever the newest line goes into one of slots 0
  to 14. `NewestEntryHiddenAfterWrap` proves it for a full log with the
  cursor at 0.
- **Flow control.** A lwIP receive callback would be expected to report
  the data it consumed with `tcp_recved`, so that the receive window
  reopens. The code never does, so that is not modelled either.

## Model

| member | source | states |
|---|---|---|
| CText.Find | checkin.c:41 | `strstr`: the result is a match and no match lies before it; the result is none exactly when no match exists |
| CText.StartsWithPointwise | checkin.c:201 | `strncmp(line, "GET", 3) == 0`: the line is at least as long as the prefix and agrees with it character by character |
| CText.ToUpper | checkin.c:78-80 | `toupper` in the "C" locale: lower-case ASCII letters become upper-case, and every other character is unchanged |
| Ssd1306Defs.Wrap8 | src/ssd1306_i2c.c:92 | storing an `int` into a `uint8_t` keeps it modulo 256, and keeps it unchanged when it is already in 0..255 |
| Ssd1306Defs.OpcodeBits | src/ssd1306_i2c.c:41-110 | each option bit ORed into an opcode yields the neighbouring opcode: 0x26, 0x2E and 0x2F in the scroll commands (lines 41-48), and 0xA1, 0xC8 and 0xAF in the configuration (lines 90-110) |
| Ssd1306Defs.NumPages | inc/ssd1306.h:49 | the number of whole 8-pixel pages in the height: pages*8 <= height < (pages+1)*8 |
| Ssd1306Defs.CellsFit | inc/ssd1306.h:50 | every page-column cell lies after the control byte and inside a buffer of pages*width+1 bytes |
| Ssd1306Defs.LastCellIsLast | inc/ssd1306.h:50 | the buffer has no spare byte: the last page-column cell is its last byte |
| Ssd1306Defs.DefaultGeometry | inc/ssd1306.h:9-50 | the 128x64 panel has 8 pages and a 1025-byte buffer |
| Ssd1306Defs.ControlBytesDistinct | inc/ssd1306.h:53-54 | the command control byte differs from the data control byte |
| Ssd1306.CmdWrites | src/ssd1306_i2c.c:24-28 | one command write per command byte, in order |
| Ssd1306.DecodeFraming | src/ssd1306_i2c.c:19-37 | the controller decodes a command write as that command and a data write as exactly its payload |
| Ssd1306.CommandStreamRoundTrip | src/ssd1306_i2c.c:19-28 | decoding the writes of a command list gives back exactly that list |
| Ssd1306.SendCmd | src/ssd1306_i2c.c:19-22 | appends one write of [0x80, cmd] to address 0x3C |
| Ssd1306.SendCmdList | src/ssd1306_i2c.c:24-28 | appends the command writes of the list, in order |
| Ssd1306.SendBuf | src/ssd1306_i2c.c:30-37 | appends one data write of the first `buflen` bytes; a failed allocation sends nothing |
| Ssd1306.ScrollCommandBytes | src/ssd1306_i2c.c:39-51 | the scroll set-up bytes are fixed; the last byte is 0x2F to start scrolling and 0x2E to stop |
| Ssd1306.Scroll | src/ssd1306_i2c.c:39-51 | sends the scroll commands as command writes |
| Ssd1306.RenderArea.CalcBuflen | src/ssd1306_i2c.c:15-17 | the area length is (columns) x (pages), computed in `int` |
| Ssd1306.RenderWrites | src/ssd1306_i2c.c:53-64 | the first six writes decode to the column and page window commands; when the buffer was allocated, the seventh decodes to the area's bytes as data |
| Ssd1306.Render | src/ssd1306_i2c.c:53-64 | sends the column and page windows, then the area's bytes as one data write |
| Ssd1306.FullAreaIsFramebuffer | src/ssd1306_i2c.c:117-127 | the full-screen area holds exactly the framebuffer bytes after the control byte |
| Ssd1306.ShowIsFullRender | src/ssd1306_i2c.c:117-127 | show sends what a full-screen render sends, and the data write equals the framebuffer byte for byte |
| Ssd1306.ConfigStream | src/ssd1306_i2c.c:83-111 | the controller receives the 21 configuration bytes, with the multiplex ratio height-1 and the COM pins 0x02 only at height 32, and then display-on |
| Ssd1306.ConfigOverflowsCmdArray | src/ssd1306_i2c.c:84-106 | the configuration has 21 commands, three more than the 18-entry array |
| Ssd1306.ConfigCommands | src/ssd1306_i2c.c:86-106 | the configuration is 21 command bytes, starting with display-off and ending with entire-on |
| Ssd1306.FillConfigCommands | src/ssd1306_i2c.c:84-106 | the running-index fill leaves exactly the configuration commands in the first `i` entries |
| Ssd1306.FillConfigHead | src/ssd1306_i2c.c:86-96 | the first 11 entries are the configuration commands up to the COM pin opcode |
| Ssd1306.FillConfigTail | src/ssd1306_i2c.c:97-106 | entries 11 to 20 complete the configuration commands |
| Ssd1306.Display.Config | src/ssd1306_i2c.c:83-111 | sends the configuration commands, then display-on |
| Ssd1306.Cleared | src/ssd1306_i2c.c:113-115 | clearing keeps the control byte and zeroes every other byte |
| Ssd1306.ClearIdempotent | src/ssd1306_i2c.c:113-115 | clearing twice is clearing once |
| Ssd1306.Display.Clear | src/ssd1306_i2c.c:113-115 | the framebuffer becomes `Cleared` of the old one; nothing is sent |
| Ssd1306.ShowWrites | src/ssd1306_i2c.c:117-127 | the first six writes decode to columns 0..width-1 and pages 0..pages-1 (in bytes); when the buffer was allocated, the seventh decodes to the framebuffer after its control byte |
| Ssd1306.Display.Show | src/ssd1306_i2c.c:117-127 | sends the full column and page range, then the framebuffer after the control byte |
| Ssd1306.InitBitmap | src/ssd1306_i2c.c:68-81 | fails exactly on a null display or a failed allocation; otherwise sets the geometry and the buffer is the control byte followed by zeros |
| Ssd1306.GlyphIndex | src/ssd1306_i2c.c:135-143 | letters of either case map to 1..26, digits to 27..36, and everything else to the blank glyph 0 |
| Ssd1306.GlyphIndexIgnoresCase | src/ssd1306_i2c.c:135-143 | a character and its upper-case form draw the same glyph, because `toupper` runs before the lookup |
| Ssd1306.GlyphIndexInjective | src/ssd1306_i2c.c:135-143 | two characters share a non-blank glyph only when they are equal after upper-casing |
| Ssd1306.CDiv | src/ssd1306_i2c.c:134 | C's `/` on `int`: the quotient takes the sign of the dividend, and its magnitude is the floor of the magnitude of a divided by b (truncation toward zero, not Euclidean division) |
| Ssd1306.CDivTruncates | src/ssd1306_i2c.c:134 | truncation toward zero: for a >= 0, q*b <= a < (q+1)*b; for a < 0, (q-1)*b < a <= q*b |
| Ssd1306.AsWrittenGlyphStart | src/ssd1306_i2c.c:131-143 | for coordinates below 32768, where the `int16_t` narrowing changes nothing, the as-written bounds test passes exactly for an on-screen glyph and its start is the corrected `GlyphAt` |
| Ssd1306.GlyphCellInBounds | src/ssd1306_i2c.c:132-144 | a glyph that passes the bounds test starts after the control byte and ends inside the buffer |
| Ssd1306.PutGlyph | src/ssd1306_i2c.c:131-148 | drawing keeps the buffer length and the control byte; an off-screen glyph changes nothing |
| Ssd1306.PutGlyphCells | src/ssd1306_i2c.c:144-147 | an on-screen glyph writes its byte i to offset i of its cell, and every other byte is unchanged |
| Ssd1306.PutGlyphWritesCell | src/ssd1306_i2c.c:144-147 | byte i of the cell holds byte i of the glyph |
| Ssd1306.PutGlyphKeepsEarlier | src/ssd1306_i2c.c:144-147 | bytes before the glyph's cell are unchanged |
| Ssd1306.CopyGlyph | src/ssd1306_i2c.c:145-147 | the copy loop replaces exactly the 8 bytes at `fb_idx` with the glyph |
| Ssd1306.Display.WriteChar | src/ssd1306_i2c.c:131-148 | the framebuffer becomes `PutGlyph` of the old one, and the invariant (control byte, size) is kept |
| Ssd1306.Drawn | src/ssd1306_i2c.c:150-155 | drawing a string keeps the buffer length and the control byte |
| Ssd1306.DrawnStep | src/ssd1306_i2c.c:151-153 | one loop turn: draw character k, then continue 8*scale columns further right |
| Ssd1306.Display.DrawString | src/ssd1306_i2c.c:150-155 | the framebuffer becomes `Drawn` of the old one, with character k at column x+8*scale*k |
| Ssd1306.ColumnFormula | src/ssd1306_i2c.c:153 | character k is drawn at column x + step*k |
| Ssd1306.DrawnSplit | src/ssd1306_i2c.c:150-155 | drawing a string is drawing its first k characters, then the rest from column k |
| Ssd1306.DrawnSplitAt | src/ssd1306_i2c.c:150-155 | the same split, stated for one framebuffer byte |
| Ssd1306.DrawnOffscreen | src/ssd1306_i2c.c:132-133 | a string that starts past the right edge draws nothing |
| Ssd1306.DrawnDropsOffscreenTail | src/ssd1306_i2c.c:150-155 | characters from the first one past the right edge onwards are dropped, not wrapped |
| Ssd1306.DrawnKeepsEarlier | src/ssd1306_i2c.c:150-155 | bytes before the first glyph's cell are unchanged by the whole string |
| Ssd1306.DrawnFirstGlyphVisible | src/ssd1306_i2c.c:150-155 | with scale >= 1, the first on-screen glyph is intact after the whole string |
| Ssd1306.DrawnGlyphVisible | src/ssd1306_i2c.c:150-155 | with scale >= 1, every on-screen character's glyph is intact after the whole string |
| Ssd1306.ToInt16 | src/ssd1306_i2c.c:131 | the `int16_t` conversion is within -32768..32767 and congruent to the input modulo 65536 |
| Ssd1306.WrappedColumnEscapesBuffer | src/ssd1306_i2c.c:131-144 | x = 65535 becomes -1 and overwrites the control byte; x = 65528 starts 7 bytes before the buffer |
| CheckinStore.LedFor | checkin.c:55-71 | green exactly when some flag is set, red otherwise |
| CheckinStore.CheckinService.UpdateLed | checkin.c:55-71 | the early-exit loop sets the LED to `LedFor` of the flags |
| CheckinStore.CountTrue | checkin.c:130-133 | the count of set flags is at most the number of flags |
| CheckinStore.CountPositiveIffPresent | checkin.c:130-133 | the count is positive exactly when some flag is set |
| CheckinStore.LedMatchesCount | checkin.c:55-71 | the LED is green exactly when the page's count is positive, and red exactly when it is 0 |
| CheckinStore.NormalizedName | checkin.c:75-80 | the looked-up name is the C string cut to 15 characters, each upper-cased |
| CheckinStore.CopyUpper | checkin.c:75-80 | the `strncpy`, forced NUL and upper-casing loop produce `NormalizedName` |
| CheckinStore.UpperOnly | checkin.c:75-80 | a short NUL-free name is only upper-cased |
| CheckinStore.UserIndex | checkin.c:81-87 | the position of the name among the valid users, or -1 exactly when it is not one |
| CheckinStore.FindUser | checkin.c:81-87 | the `strcmp` loop returns `UserIndex` |
| CheckinStore.UserMatchIgnoresCase | checkin.c:75-87 | a user string selects user k exactly when it has that name's length and matches it letter by letter after upper-casing |
| CheckinStore.LongNamesNeverMatch | checkin.c:75-87 | a name longer than 9 characters selects nobody |
| CheckinStore.ButtonsSelectUsers | checkin.c:162-165 | each button value of the page selects its own user |
| CheckinStore.JoaoButton | checkin.c:162 | "Joao" normalizes to "JOAO" |
| CheckinStore.MariaButton | checkin.c:163 | "Maria" normalizes to "MARIA" |
| CheckinStore.CarlosButton | checkin.c:164 | "Carlos" normalizes to "CARLOS" |
| CheckinStore.VisitanteButton | checkin.c:165 | "Visitante" normalizes to "VISITANTE" |
| CheckinStore.Stamp | checkin.c:90-98 | the timestamp text has at most 8 characters and no NUL, and is the clock text itself when that fits |
| CheckinStore.LogLine | checkin.c:100-110 | a log line is non-empty, fits a 64-byte slot and starts with the user's name |
| CheckinStore.ToggleSpec | checkin.c:74-113 | the state stays well formed, and an unknown name changes nothing |
| CheckinStore.Toggled | checkin.c:100-112 | a toggle of a known user keeps the state well formed |
| CheckinStore.ToggleDependsOnNameOnly | checkin.c:74-88 | two user strings with the same normalized name toggle alike |
| CheckinStore.ToggleChangesOneUserAndOneSlot | checkin.c:100-111 | a toggle flips exactly that user's flag, writes the check-out or check-in line into exactly the cursor's slot, and advances the cursor modulo 20 |
| CheckinStore.ToggleTwiceRestoresFlags | checkin.c:100-111 | toggling the same user twice restores every flag and advances the cursor by two; for a known user, the cursor's slot holds the first line and the next slot holds the opposite line |
| CheckinStore.CheckinService.Toggle | checkin.c:74-113 | the store's new state is `ToggleSpec` of the old one, and the LED invariant is kept |
| CheckinStore.CheckinService.Record | checkin.c:100-112 | the store's new state is `Toggled` of the old one |
| CheckinStore.CheckinService.ClearLog | checkin.c:116-126 | nobody is present, every slot is empty, the cursor is 0 and the LED is red |
| CheckinStore.CheckinService.constructor | checkin.c:30-35 | the zero-initialised statics are the cleared state, and the LED is red |
| CheckinStore.Filled | checkin.c:137-139 | the listed slots are non-empty slots of the log, every non-empty slot is listed, and there are no more of them than slots |
| CheckinStore.FilledAllSlots | checkin.c:137-139 | with no empty slot, every slot is listed |
| CheckinStore.LastN | checkin.c:140-145 | the window holds min(n, length) elements, and they are the suffix |
| CheckinStore.Window | checkin.c:134-147 | the page lists min(5, k) non-empty entries for k filled slots |
| CheckinStore.LastNStep | checkin.c:137-147 | appending one entry to a window of five drops the oldest |
| CheckinStore.WindowStep | checkin.c:137-147 | one loop turn: an empty slot leaves the window alone, and a filled one is appended, dropping the oldest at six |
| CheckinStore.PageFor | checkin.c:129-175 | the count is at most the number of users, and at most 5 entries are listed, no more than there are slots |
| CheckinStore.PageSummary | checkin.c:129-175 | the count is at most 4 and positive exactly when the LED is green; the entries are the last min(5, k) filled slots |
| CheckinStore.NewestEntryHiddenAfterWrap | checkin.c:137-147 | with all slots full and the cursor at 0, the newest line goes into slot 0 but the page shows slots 15 to 19 |
| CheckinStore.AsWrittenWindowFrom | checkin.c:135-140 | the loop as written fails exactly when more than 5 entries would be stored; otherwise it yields the stored entries followed by the rest, in order |
| CheckinStore.AsWrittenWindowOverflows | checkin.c:135-140 | the loop as written gives the window while at most 5 slots are filled, and stores outside `entries[5]` once a sixth is |
| CheckinStore.AsWrittenWindowPrefix | checkin.c:135-140 | the as-written loop copies filled slots into the array in order until it overflows |
| CheckinStore.CheckinService.BuildPage | checkin.c:129-175 | the page is `PageFor` of the current state |
| CheckinStore.CheckinService.CountPresent | checkin.c:130-133 | the count loop returns `CountTrue` of the flags |
| CheckinStore.CheckinService.CollectWindow | checkin.c:134-147 | the window loop returns `Window` of the log |
| CheckinStore.AddEntry | checkin.c:138-145 | stores the entry after the collected ones and keeps the newest five |
| CheckinStore.DropOldest | checkin.c:141-144 | the shift moves entries 1..5 to 0..4 |
| CheckinHttp.TakeValue | checkin.c:46-50 | the value is a prefix of the text after `=`, holds no `&`, space or NUL, has at most `cap` characters, and stops only at such a character or the cap |
| CheckinHttp.ParamValue | checkin.c:40-52 | a value is found only when the key is; it fits `maxLen` bytes with its NUL and holds no `&`, space or NUL |
| CheckinHttp.ParamValueMeaning | checkin.c:40-52 | extraction succeeds exactly when the leftmost occurrence of the key is followed by `=`; the value is a delimiter-free prefix of what follows, and leaves room for the NUL |
| CheckinHttp.KeyEqualsMatch | checkin.c:41-44 | `key=` occurs at p exactly when the key occurs there and `=` follows |
| CheckinHttp.FindIs | checkin.c:41 | a match with none before it is the one `strstr` returns |
| CheckinHttp.FirstOccurrenceOnly | checkin.c:41-44 | only the first occurrence of the key is tried: "?users&user=ana" yields nothing |
| CheckinHttp.KeyMatchesInsideLongerName | checkin.c:41-44 | the key is not delimited: "user" is found inside "superuser" |
| CheckinHttp.UserInsideSuperuser | checkin.c:41 | the first "user" in "?superuser=ana" is at index 6 |
| CheckinHttp.EmptyValueFound | checkin.c:46-51 | an empty value is still a success |
| CheckinHttp.ExtractParameter | checkin.c:40-52 | succeeds exactly when `ParamValue` does; on success the value and its NUL are stored and nothing after them changes; on failure nothing changes |
| CheckinHttp.CopyValue | checkin.c:46-50 | the copy loop stores `TakeValue` of the text and a NUL, and nothing after them |
| CheckinHttp.Pbuf.Free | checkin.c:231 | a release is counted once |
| CheckinHttp.ConcatPrefix | checkin.c:185-188 | the data of the first k buffers is a prefix of the chain's data |
| CheckinHttp.CopyLen | checkin.c:186 | at most 1023 bytes are copied, and all of them when the data is shorter |
| CheckinHttp.RequestBuffer | checkin.c:185-188 | the request buffer holds the copied bytes, and NULs to its end |
| CheckinHttp.CopyRequest | checkin.c:185-188 | copying buffer by buffer yields `RequestBuffer` of the chain |
| CheckinHttp.CopySegment | checkin.c:187 | one buffer's bytes are appended up to the limit, and the rest stays NUL |
| CheckinHttp.AsWrittenCopy | checkin.c:186-187 | when the as-written copy stays inside the first payload, it copies the same bytes as the whole-chain copy; a one-buffer chain always stays inside |
| CheckinHttp.AsWrittenCopyOverreads | checkin.c:186-187 | a one-buffer request is copied correctly as written; a 536+100-byte chain reads past the first payload |
| CheckinHttp.SkipBreaks | checkin.c:192 | drops exactly the leading line breaks |
| CheckinHttp.UntilBreak | checkin.c:192 | keeps exactly the text up to the first line break |
| CheckinHttp.FirstToken | checkin.c:192 | `strtok` finds no token exactly when the text is all line breaks; a token is non-empty and break-free |
| CheckinHttp.TokenFromText | checkin.c:192 | every character of the token comes from the text |
| CheckinHttp.RequestLine | checkin.c:191-198 | the request line is non-empty, at most 255 characters, and free of NULs and line breaks |
| CheckinHttp.ReadRequestLine | checkin.c:185-198 | the copy and `strtok` give `RequestLine` of the chain |
| CheckinHttp.Classify | checkin.c:200-226 | a line is dropped exactly when it does not start with "GET"; a toggled name has at most 15 characters |
| CheckinHttp.ContainsPrefix | checkin.c:208-218 | finding "clear=true" means "clear=" is found |
| CheckinHttp.ClassifyMeaning | checkin.c:200-226 | a line is dropped exactly when it does not start with "GET"; "clear=true" wins over a user |
| CheckinHttp.ToggleRouteMeaning | checkin.c:217-225 | a toggle needs a GET line with "user=" and without "clear=true"; the name has at most 15 characters and no delimiter |
| CheckinHttp.ClassifyNotFound | checkin.c:206-215 | the 404 reply goes exactly to the GET lines other than "GET /" and "GET / HTTP/1.1" that hold neither "user=" nor "clear=" |
| CheckinHttp.NotFoundExamples | checkin.c:206-215 | "GET /favicon.ico HTTP/1.1" gets the 404 reply |
| CheckinHttp.IndexPageServed | checkin.c:208-209 | "GET /" gets the page without any action |
| CheckinHttp.TcpPcb.Write | checkin.c:212 | appends one reply and leaves the closed flag alone |
| CheckinHttp.TcpPcb.Close | checkin.c:181 | closes the connection and writes nothing |
| CheckinHttp.RouteOf | checkin.c:189-200 | any route other than dropping comes from a request line that starts with "GET" |
| CheckinHttp.Serve | checkin.c:200-232 | every route keeps the state well formed and writes at most one reply; only a dropped line writes none; dropping, 404 and the bare page keep the state; a page reply shows the new state |
| CheckinHttp.Handle | checkin.c:179-233 | the same for a received chain: no reply exactly when it is dropped, at most one otherwise, the state kept unless it clears or toggles, and the page shows the new state; the outcome of each route is stated by the four lemmas below |
| CheckinHttp.HandleNotFound | checkin.c:208-214 | for a received request line, the outcome is exactly the 404 text with the state unchanged if and only if the line is a GET line with neither "user=" nor "clear=" that is not one of the two index lines |
| CheckinHttp.HandleClear | checkin.c:218-219 | a GET line holding "clear=true" empties the store (nobody present, every slot empty, cursor 0) and gets the page of the empty store, even when it also names a user |
| CheckinHttp.HandleToggle | checkin.c:221-225 | a GET line without "clear=true" whose `user` value is extracted gets the new state `ToggleSpec` of that value and the page of the new state |
| CheckinHttp.HandleIndex | checkin.c:208-209 | "GET /" gets the page of the unchanged state |
| CheckinHttp.ValueBufferName | checkin.c:222-224 | the C string in the value buffer is the extracted value, so the toggle sees its name |
| CheckinHttp.HttpRecv | checkin.c:179-233 | a null chain closes the connection and changes nothing; otherwise the chain is released exactly once, the connection stays open, and the state and replies are as `Handle` says |
| CheckinHttp.ServeLine | checkin.c:200-232 | drops, answers 404, or acts and sends the page, as `Serve` of the line's route says, never closing |
| CheckinHttp.ApplyAction | checkin.c:217-226 | clears or toggles as the line's route says |

## Left out

- `main`, the Wi-Fi access point, the DHCP and DNS servers, `start_http_server` and `connection_callback`: these are hardware and network set-up outside the core.
- The HTML text of the page, with the `strcat` into `log_html` and the `snprintf` into the 2048-byte response: a reply is a `Page` value, the count and the listed entries.
- `printf` output, the GPIO pin writes (the LED is the `led` field), and the I2C port, address and clock fields of the display.
- The clock: `time`/`localtime` are replaced by the text parameter `ts`, which `Stamp` cuts as `snprintf` does into 9 bytes.
- The font table in `ssd1306_font.h` is not part of this model; the font is a parameter of at least 37*8 bytes.
- The results of `i2c_write_blocking` and `tcp_write` (the source ignores both) and the freeing of the scratch buffer in `SSD1306_send_buf`; success of `malloc`/`calloc` is the parameter `allocOk`.
- Text is `seq<char>`: the `à` in the log lines is one character, not two UTF-8 bytes; every line still fits a 64-byte slot.
- Ssd1306.Display.DrawString: takes one `char` per C byte, like `Drawn`. Given a UTF-8 string, a character such as `à` is two bytes in C, so it draws two blank glyphs and moves 16 x scale columns. The model leaves the encoding to the caller.
- Ssd1306.Display.WriteChar: takes non-negative unbounded coordinates; the `int16_t` narrowing of the source is modelled separately by `AsWrittenGlyphStart`.
- Ssd1306.Display.DrawString: does not model the `uint32_t` wrap-around of `x += 8*scale`; a string drawn far enough right only drops characters here.
- Ssd1306.FillConfigCommands: fills a 21-entry sequence, not the 18-entry array of the source; `ConfigOverflowsCmdArray` states the overflow.
- CheckinStore.CheckinService.CollectWindow: uses a six-entry array so that the sixth entry is stored before the shift; `AsWrittenWindowFrom` models the five-entry array.
- CheckinHttp.CopyRequest: copies across the whole buffer chain; `AsWrittenCopy` models the copy from the first payload only.

## Findings

| source | as written | input that shows it | evidently intended | confidence | as-written member | corrected member |
|---|---|---|---|---|---|---|
| checkin.c:135-140 | `entries[count++]` stores into `char *entries[5]` before the `count > 5` test, so the sixth non-empty slot is written one past the end | any log with six non-empty slots, e.g. six toggles after a clear, then a page request | keep the newest five entries without writing outside the array | high; not executed | CheckinStore.AsWrittenWindowOverflows | CheckinStore.CheckinService.CollectWindow |
| src/ssd1306_i2c.c:84-106 | 21 commands are stored into `uint8_t cmds[18]` | every call of `ssd1306_config` | an array with room for all 21 commands | high; not executed | Ssd1306.ConfigOverflowsCmdArray | Ssd1306.FillConfigCommands |
| src/ssd1306_i2c.c:131-144 | `uint32_t` coordinates are narrowed to `int16_t`; a negative x passes the bounds test | `ssd1306_draw_string` at x = 65535, y = 0: the glyph overwrites the control byte; at x = 65528 it starts 7 bytes before the buffer | reject every column that does not fit the panel | high; not executed | Ssd1306.WrappedColumnEscapesBuffer | Ssd1306.Display.WriteChar |
| checkin.c:186-187 | `tot_len` bytes (the whole chain, capped at 1023) are copied from the first buffer's payload alone | a request received as two buffers of 536 and 100 bytes | copy the data of the whole chain | medium; not executed | CheckinHttp.AsWrittenCopyOverreads | CheckinHttp.CopyRequest |

=== FILE: checkin_http.dfy ===
/** The HTTP side of the check-in service: query-parameter extraction, the
    first line of a request and its classification, and the receive handler
    that drives the presence store and writes the reply. */
module CheckinHttp {
  import opened CText
  import opened CheckinStore

  /** Size of the request buffer; at most one byte less is copied. */
  const REQUEST_SIZE: nat := 1024
  /** Size of the request-line buffer; at most one byte less is kept. */
  const LINE_SIZE: nat := 256
  /** Size of the buffer the `user` value is extracted into. */
  const USER_PARAM_SIZE: nat := 16

  /** The complete reply to a request that is not served: status line 404
      (section 15.5.5 of RFC 9110) and an empty body. */
  const NOT_FOUND_RESPONSE: string := "HTTP/1.1 404 Not Found\r\nContent-Length: 0\r\n\r\n"

  // ---------------------------------------------------------------------
  // Query parameters
  // ---------------------------------------------------------------------

  predicate EndsValue(c: char) { c == '&' || c == ' ' || c == '\0' }

  /** The characters `extract_parameter` copies from `s`: up to the first
      `&`, space or NUL, and at most `cap` of them. */
  function TakeValue(s: string, cap: nat): (v: string)
    ensures |v| <= cap && |v| <= |s| && v == s[..|v|]
    ensures forall i :: 0 <= i < |v| ==> !EndsValue(v[i])
    ensures |v| < |s| && |v| < cap ==> EndsValue(s[|v|])
  {
    if s == [] || cap == 0 || EndsValue(s[0]) then []
    else [s[0]] + TakeValue(s[1..], cap - 1)
  }

  /** `extract_parameter(line, key, value, maxLen)`: the first occurrence of
      `key` must be followed by `=`; the value is what follows, cut as
      `TakeValue` says to fit `maxLen` bytes with the NUL. No later
      occurrence is tried and no percent-decoding is done. */
  function ParamValue(line: string, key: string, maxLen: nat): (r: Option<string>)
    requires maxLen >= 1
    ensures r.Some? ==> Find(line, key).Some? && |r.value| < maxLen
    ensures r.Some? ==> forall i :: 0 <= i < |r.value| ==> !EndsValue(r.value[i])
  {
    match Find(line, key)
    case None => None
    case Some(p) =>
      var q := p + |key|;
      if q < |line| && line[q] == '=' then Some(TakeValue(line[q + 1..], maxLen - 1)) else None
  }

  /** What a successful extraction means: the leftmost occurrence of `key`
      is immediately followed by `=`, and the value is a prefix of the text
      after it that holds no `&`, space or NUL and leaves room for the NUL. */
  lemma ParamValueMeaning(line: string, key: string, maxLen: nat)
    requires maxLen >= 1
    ensures ParamValue(line, key, maxLen).Some? <==>
      exists p: nat :: MatchesAt(line, key + "=", p) && forall j :: 0 <= j < p ==> !MatchesAt(line, key, j)
    ensures ParamValue(line, key, maxLen).Some? ==>
      && MatchesAt(line, key + "=", Find(line, key).value)
      && |ParamValue(line, key, maxLen).value| <= maxLen - 1
      && StartsWith(line[Find(line, key).value + |key| + 1..], ParamValue(line, key, maxLen).value)
      && (forall i :: 0 <= i < |ParamValue(line, key, maxLen).value| ==> !EndsValue(ParamValue(line, key, maxLen).value[i]))
  {
    var r := ParamValue(line, key, maxLen);
    match Find(line, key)
    case None =>
      if p: nat :| MatchesAt(line, key + "=", p) && forall j :: 0 <= j < p ==> !MatchesAt(line, key, j) {
        KeyEqualsMatch(line, key, p);
      }
    case Some(p) =>
      if r.Some? {
        KeyEqualsMatch(line, key, p);
      } else {
        if p': nat :| MatchesAt(line, key + "=", p') && forall j :: 0 <= j < p' ==> !MatchesAt(line, key, j) {
          KeyEqualsMatch(line, key, p');
          assert false;
        }
      }
  }

  /** `key=` occurs at `p` exactly when `key` does and `=` follows it. */
  lemma KeyEqualsMatch(line: string, key: string, p: nat)
    ensures MatchesAt(line, key + "=", p)
        <==> MatchesAt(line, key, p) && p + |key| < |line| && line[p + |key|] == '='
  {
    if MatchesAt(line, key + "=", p) {
      assert line[p..p + |key|] == (key + "=")[..|key|];
    }
    if MatchesAt(line, key, p) && p + |key| < |line| && line[p + |key|] == '=' {
      assert line[p..p + |key| + 1] == line[p..p + |key|] + [line[p + |key|]];
    }
  }

  /** A match with none before it is the one `Find` returns. */
  lemma FindIs(s: string, pat: string, p: nat)
    requires MatchesAt(s, pat, p)
    requires forall j :: 0 <= j < p ==> !MatchesAt(s, pat, j)
    ensures Find(s, pat) == Some(p)
  {
  }

  /** One differing character rules out a match. */
  lemma NotAt(s: string, pat: string, j: nat, k: nat)
    requires k < |pat| && j + k < |s| && s[j + k] != pat[k]
    ensures !MatchesAt(s, pat, j)
  {
    if j + |pat| <= |s| {
      assert s[j..j + |pat|][k] == s[j + k];
    }
  }

  /** Only the first occurrence of the key is looked at: a request whose
      first "user" is not followed by `=` yields nothing, although "user="
      occurs later. */
  lemma FirstOccurrenceOnly()
    ensures ParamValue("?users&user=ana", "user", USER_PARAM_SIZE) == None
  {
    assert MatchesAt("?users&user=ana", "user", 1);
    NotAt("?users&user=ana", "user", 0, 0);
  }

  /** The key is not delimited: "user" is found inside "superuser". */
  lemma KeyMatchesInsideLongerName()
    ensures ParamValue("?superuser=ana", "user", USER_PARAM_SIZE) == Some("ana")
  {
    UserInsideSuperuser();
    assert "?superuser=ana"[11..] == "ana";
    assert TakeValue("ana", USER_PARAM_SIZE - 1) == "ana";
  }

  lemma UserInsideSuperuser()
    ensures Find("?superuser=ana", "user") == Some(6)
  {
    var line := "?superuser=ana";
    assert MatchesAt(line, "user", 6);
    forall j | 0 <= j < 6
      ensures !MatchesAt(line, "user", j)
    {
      if j == 2 {
        NotAt(line, "user", j, 1);
      } else {
        NotAt(line, "user", j, 0);
      }
    }
    FindIs(line, "user", 6);
  }

  /** An empty value is still a success. */
  lemma EmptyValueFound()
    ensures ParamValue("?user= x", "user", USER_PARAM_SIZE) == Some("")
  {
    assert MatchesAt("?user= x", "user", 1);
    NotAt("?user= x", "user", 0, 0);
    assert "?user= x"[6..] == " x";
  }

  /** `extract_parameter`: on success the value and its NUL are stored at the
      start of `value`; nothing after the NUL is touched, and on failure
      nothing is. */
  method ExtractParameter(line: string, key: string, value: array<char>, maxLen: nat) returns (found: bool)
    requires '\0' !in line
    requires 1 <= maxLen <= value.Length
    modifies value
    ensures found <==> ParamValue(line, key, maxLen).Some?
    ensures found ==> |ParamValue(line, key, maxLen).value| < maxLen
    ensures found ==> value[..|ParamValue(line, key, maxLen).value|] == ParamValue(line, key, maxLen).value
    ensures found ==> value[|ParamValue(line, key, maxLen).value|] == '\0'
    ensures found ==> forall j :: |ParamValue(line, key, maxLen).value| < j < value.Length ==> value[j] == old(value[j])
    ensures !found ==> value[..] == old(value[..])
  {
    var start := Find(line, key);
    if start.None? {
      return false;
    }
    var s := start.value + |key|;
    if s >= |line| || line[s] != '=' {
      return false;
    }
    s := s + 1;
    var n := CopyValue(line, s, value, maxLen);
    assert ParamValue(line, key, maxLen) == Some(TakeValue(line[s..], maxLen - 1));
    found := true;
  }

  /** The copy loop of `extract_parameter`, from index `from` of the line,
      followed by the terminating NUL. */
  method CopyValue(line: string, from: nat, value: array<char>, maxLen: nat) returns (n: nat)
    requires '\0' !in line && from <= |line|
    requires 1 <= maxLen <= value.Length
    modifies value
    ensures n == |TakeValue(line[from..], maxLen - 1)| && n < maxLen
    ensures value[..n] == TakeValue(line[from..], maxLen - 1) && value[n] == '\0'
    ensures forall j :: n < j < value.Length ==> value[j] == old(value[j])
  {
    ghost var rest := line[from..];
    ghost var v := TakeValue(rest, maxLen - 1);
    var s := from;
    n := 0;
    while s < |line| && line[s] != '&' && line[s] != ' ' && n < maxLen - 1
      invariant s == from + n
      invariant n <= |v|
      invariant value[..n] == v[..n]
      invariant forall j :: n <= j < value.Length ==> value[j] == old(value[j])
      decreases |line| - s
    {
      assert n < |v|;
      assert v[n] == rest[n] == line[s];
      value[n] := line[s];
      n := n + 1;
      s := s + 1;
    }
    assert n == |v|;
    assert value[..n] == v;
    value[n] := '\0';
    assert value[..n] == v;
  }

  // ---------------------------------------------------------------------
  // The received data and the request line
  // ---------------------------------------------------------------------

  /** A received chain of buffers (`struct pbuf`): the payload of each buffer
      in chain order, and how often the chain has been released. */
  class Pbuf {
    const payloads: seq<string>
    ghost var frees: nat

    constructor (payloads: seq<string>)
      requires payloads != []
      ensures this.payloads == payloads && frees == 0
    {
      this.payloads := payloads;
      frees := 0;
    }

    /** `tot_len`: the bytes of the whole chain. */
    function TotLen(): nat
    {
      |Concat(payloads)|
    }

    /** `pbuf_free`. */
    method Free()
      modifies this
      ensures frees == old(frees) + 1
    {
      frees := frees + 1;
    }
  }

  /** The data of a chain, payload after payload. */
  function Concat(ps: seq<string>): string
  {
    if ps == [] then [] else Concat(ps[..|ps| - 1]) + ps[|ps| - 1]
  }

  /** The data of the first `k` buffers is the start of the chain's data. */
  lemma {:induction false} ConcatPrefix(ps: seq<string>, k: nat)
    requires k <= |ps|
    ensures |Concat(ps[..k])| <= |Concat(ps)|
    ensures Concat(ps[..k]) == Concat(ps)[..|Concat(ps[..k])|]
    decreases |ps| - k
  {
    if k < |ps| {
      ConcatPrefix(ps, k + 1);
      assert ps[..k + 1][..k] == ps[..k];
    } else {
      assert ps[..k] == ps;
    }
  }

  /** How many bytes the request buffer receives. */
  function CopyLen(ps: seq<string>): (n: nat)
    ensures n < REQUEST_SIZE && n <= |Concat(ps)|
    ensures |Concat(ps)| < REQUEST_SIZE ==> n == |Concat(ps)|
  {
    Min(|Concat(ps)|, REQUEST_SIZE - 1)
  }

  /** The request buffer after the copy: the first `CopyLen` bytes of the
      chain's data, then NULs to the end of the 1024-byte buffer. */
  function RequestBuffer(ps: seq<string>): (buf: string)
    ensures |buf| == REQUEST_SIZE
    ensures buf[..CopyLen(ps)] == Concat(ps)[..CopyLen(ps)]
    ensures forall j :: CopyLen(ps) <= j < REQUEST_SIZE ==> buf[j] == '\0'
  {
    Concat(ps)[..CopyLen(ps)] + seq(REQUEST_SIZE - CopyLen(ps), _ => '\0')
  }

  /** The copy of the received data into the zeroed request buffer, taking
      the bytes from each buffer of the chain in turn. */
  method CopyRequest(p: Pbuf) returns (buf: string)
    ensures buf == RequestBuffer(p.payloads)
  {
    var ps := p.payloads;
    var copyLen := if p.TotLen() < REQUEST_SIZE - 1 then p.TotLen() else REQUEST_SIZE - 1;
    var req := new char[REQUEST_SIZE](_ => '\0');
    var n := 0;
    var k := 0;
    while k < |ps| && n < copyLen
      invariant k <= |ps|
      invariant n == Min(|Concat(ps[..k])|, copyLen)
      invariant req[..n] == Concat(ps)[..n]
      invariant forall j :: n <= j < REQUEST_SIZE ==> req[j] == '\0'
      decreases |ps| - k
    {
      ConcatPrefix(ps, k + 1);
      assert Concat(ps[..k + 1]) == Concat(ps[..k]) + ps[k] by {
        assert ps[..k + 1][..k] == ps[..k];
      }
      var seg := ps[k];
      forall off | 0 <= off < |seg| && n + off < copyLen
        ensures Concat(ps)[n + off] == seg[off]
      {
        assert Concat(ps)[n + off] == Concat(ps[..k + 1])[n + off];
      }
      n := CopySegment(req, n, seg, copyLen, Concat(ps));
      k := k + 1;
    }
    assert k == |ps| ==> ps[..k] == ps;
    assert n == copyLen;
    buf := req[..];
    assert buf == RequestBuffer(ps);
  }

  /** The inner copy loop: the bytes of one buffer go to `req` from index
      `n0` on, stopping at `limit`. */
  method CopySegment(req: array<char>, n0: nat, seg: string, limit: nat, ghost data: string) returns (n: nat)
    requires n0 <= limit <= |data| && limit <= req.Length
    requires forall off :: 0 <= off < |seg| && n0 + off < limit ==> data[n0 + off] == seg[off]
    requires req[..n0] == data[..n0]
    requires forall j :: n0 <= j < req.Length ==> req[j] == '\0'
    modifies req
    ensures n == Min(n0 + |seg|, limit)
    ensures req[..n] == data[..n]
    ensures forall j :: n <= j < req.Length ==> req[j] == '\0'
  {
    n := n0;
    var off := 0;
    while off < |seg| && n < limit
      invariant off <= |seg| && n == n0 + off && n <= limit
      invariant req[..n] == data[..n]
      invariant forall j :: n <= j < req.Length ==> req[j] == '\0'
    {
      req[n] := seg[off];
      n := n + 1;
      off := off + 1;
    }
  }

  /** The copy as written: `tot_len` (capped at 1023) bytes are read from
      the first buffer's payload alone. `None` when that reads past the end
      of the first payload. */
  function AsWrittenCopy(ps: seq<string>): (r: Option<string>)
    requires ps != []
    ensures r.Some? ==> r.value == Concat(ps)[..CopyLen(ps)]
    ensures |ps| == 1 ==> r.Some?
  {
    ConcatPrefix(ps, 1);
    assert ps[..1][..0] == [];
    assert Concat(ps[..1]) == ps[0];
    if CopyLen(ps) <= |ps[0]| then Some(ps[0][..CopyLen(ps)]) else None
  }

  /** A request that arrives in one buffer is copied correctly as written; a
      request split over two buffers (536 bytes and 100 bytes) is read past
      its first payload. */
  lemma AsWrittenCopyOverreads(first: string, second: string)
    ensures |first| < REQUEST_SIZE ==> AsWrittenCopy([first]) == Some(RequestBuffer([first])[..|first|])
    ensures |first| == 536 && |second| == 100 ==> AsWrittenCopy([first, second]) == None
  {
    assert [first][..0] == [];
    assert Concat([first]) == first;
    assert [first, second][..1] == [first];
    assert Concat([first, second]) == first + second;
  }

  predicate IsLineBreak(c: char) { c == '\r' || c == '\n' }

  /** `s` without its leading line breaks. */
  function SkipBreaks(s: string): (t: string)
    ensures |t| <= |s| && t == s[|s| - |t|..]
    ensures forall i :: 0 <= i < |s| - |t| ==> IsLineBreak(s[i])
    ensures t != [] ==> !IsLineBreak(t[0])
  {
    if s != [] && IsLineBreak(s[0]) then SkipBreaks(s[1..]) else s
  }

  /** `s` up to its first line break. */
  function UntilBreak(s: string): (t: string)
    ensures |t| <= |s| && t == s[..|t|]
    ensures forall i :: 0 <= i < |t| ==> !IsLineBreak(t[i])
    ensures |t| < |s| ==> IsLineBreak(s[|t|])
  {
    if s == [] || IsLineBreak(s[0]) then [] else [s[0]] + UntilBreak(s[1..])
  }

  /** `strtok(s, "\r\n")` on a C string: the first run of characters that are
      not line breaks, or none when there is no such character. */
  function FirstToken(s: string): (r: Option<string>)
    ensures r.None? <==> forall i :: 0 <= i < |s| ==> IsLineBreak(s[i])
    ensures r.Some? ==> r.value != [] && forall i :: 0 <= i < |r.value| ==> !IsLineBreak(r.value[i])
  {
    var t := SkipBreaks(s);
    if t == [] then None
    else
      assert t[0] == s[|s| - |t|];
      Some(UntilBreak(t))
  }

  /** The characters of the first token come from the text. */
  lemma TokenFromText(text: string)
    requires FirstToken(text).Some?
    ensures forall i :: 0 <= i < |FirstToken(text).value| ==> FirstToken(text).value[i] in text
  {
    var t := SkipBreaks(text);
    var token := FirstToken(text).value;
    forall i | 0 <= i < |token| ensures token[i] in text {
      assert token == UntilBreak(t);
      assert token[i] == t[i] == text[|text| - |t| + i];
    }
  }

  /** The request line the handler examines: the first token of the request
      as a C string, cut to 255 characters (`strncpy` into a 256-byte zeroed
      buffer). */
  function RequestLine(ps: seq<string>): (r: Option<string>)
    ensures r.Some? ==> 0 < |r.value| < LINE_SIZE && '\0' !in r.value
    ensures r.Some? ==> forall i :: 0 <= i < |r.value| ==> !IsLineBreak(r.value[i])
  {
    var text := UntilNul(RequestBuffer(ps));
    match FirstToken(text)
    case None => None
    case Some(token) =>
      TokenFromText(text);
      Some(token[..Min(LINE_SIZE - 1, |token|)])
  }

  // ---------------------------------------------------------------------
  // Classification
  // ---------------------------------------------------------------------

  /** What the handler does with a request line. */
  datatype Route =
    | Drop                     // not a GET: no reply
    | NotFound                 // the 404 reply
    | ClearAll                 // clear the log, then the page
    | ToggleUser(user: string) // toggle that user, then the page
    | PageOnly                 // just the page

  /** The decision made on the first request line. */
  function Classify(line: string): (r: Route)
    ensures r.Drop? <==> !StartsWith(line, "GET")
    ensures r.ToggleUser? ==> |r.user| < USER_PARAM_SIZE
  {
    if !StartsWith(line, "GET") then Drop
    else if !Contains(line, "user=") && !Contains(line, "clear=")
         && line != "GET / HTTP/1.1" && line != "GET /" then NotFound
    else if Contains(line, "clear=true") then ClearAll
    else match ParamValue(line, "user", USER_PARAM_SIZE)
      case Some(v) => ToggleUser(v)
      case None => PageOnly
  }

  /** A longer pattern found means its prefix is found. */
  lemma ContainsPrefix(s: string, pat: string, pre: string)
    requires Contains(s, pat) && StartsWith(pat, pre)
    ensures Contains(s, pre)
  {
    var p := Find(s, pat).value;
    assert s[p..p + |pre|] == pat[..|pre|];
    assert MatchesAt(s, pre, p);
  }

  /** A line is dropped exactly when it does not start with "GET", and a GET
      line holding "clear=true" clears the log even when it also names a
      user. */
  lemma ClassifyMeaning(line: string)
    ensures !StartsWith(line, "GET") <==> Classify(line) == Drop
    ensures StartsWith(line, "GET") && Contains(line, "clear=true") ==> Classify(line) == ClearAll
  {
    if StartsWith(line, "GET") && Contains(line, "clear=true") {
      ContainsPrefix(line, "clear=true", "clear=");
    }
  }

  /** A toggle only happens for a GET line that holds "user=" and not
      "clear=true"; the name handed on has at most 15 characters and no `&`,
      space or NUL. */
  lemma ToggleRouteMeaning(line: string, user: string)
    requires Classify(line) == ToggleUser(user)
    ensures StartsWith(line, "GET") && Contains(line, "user=") && !Contains(line, "clear=true")
    ensures |user| < USER_PARAM_SIZE
    ensures forall i :: 0 <= i < |user| ==> !EndsValue(user[i])
  {
    ParamValueMeaning(line, "user", USER_PARAM_SIZE);
    var p := Find(line, "user").value;
    assert MatchesAt(line, "user=", p);
    assert Find(line, "user=").Some?;
  }

  /** A request for any other resource gets the 404 reply. */
  lemma NotFoundExamples()
    ensures Classify("GET /favicon.ico HTTP/1.1") == NotFound
  {
    var a := "GET /favicon.ico HTTP/1.1";
    assert a[..3] == "GET";
    NoMatchIn(a, "user=", 0);
    NoMatchIn(a, "clear=", 1);
    ClassifyNotFound(a);
  }

  /** The 404 reply goes exactly to the GET lines other than the two index
      lines that hold neither parameter. */
  lemma ClassifyNotFound(line: string)
    ensures Classify(line) == NotFound
        <==> && StartsWith(line, "GET") && !Contains(line, "user=") && !Contains(line, "clear=")
             && line != "GET /" && line != "GET / HTTP/1.1"
  {
  }

  /** The bare index line gets the page, with no action. */
  lemma IndexPageServed()
    ensures Classify("GET /") == PageOnly
  {
    var a := "GET /";
    assert StartsWith(a, "GET") by {
      assert a[..3] == "GET";
    }
    NoMatchIn(a, "user", 0);
    NoMatchIn(a, "clear=", 0);
    assert !Contains(a, "clear=true") by {
      NoMatchIn(a, "clear=true", 0);
    }
  }

  /** A pattern one of whose characters does not occur is not found. */
  lemma NoMatchIn(s: string, pat: string, k: nat)
    requires k < |pat| && pat[k] !in s
    ensures Find(s, pat) == None
  {
    forall j | 0 <= j <= |s| ensures !MatchesAt(s, pat, j) {
      if j + k < |s| {
        NotAt(s, pat, j, k);
      }
    }
  }

  // ---------------------------------------------------------------------
  // The handler
  // ---------------------------------------------------------------------

  /** What is written back on a connection: raw bytes, or the page built
      from a summary (its HTML text is not modelled). */
  datatype Reply = Raw(text: string) | PageReply(page: Page)

  /** The connection (`struct tcp_pcb`): what has been written on it and
      whether it has been closed. */
  class TcpPcb {
    var written: seq<Reply>
    var closed: bool

    constructor ()
      ensures written == [] && !closed
    {
      written := [];
      closed := false;
    }

    /** `tcp_write`. */
    method Write(r: Reply)
      modifies this
      ensures written == old(written) + [r] && closed == old(closed)
    {
      written := written + [r];
    }

    /** `tcp_close`. */
    method Close()
      modifies this
      ensures written == old(written) && closed
    {
      closed := true;
    }
  }

  /** The route of a received chain: dropped when its data holds no request
      line. */
  function RouteOf(ps: seq<string>): (r: Route)
    ensures r != Drop ==> RequestLine(ps).Some? && StartsWith(RequestLine(ps).value, "GET")
  {
    match RequestLine(ps)
    case None => Drop
    case Some(line) => Classify(line)
  }

  /** The state after handling a request and the replies written for it. */
  datatype Outcome = Outcome(state: Presence, replies: seq<Reply>)

  /** The new state and the replies for a request line's route. */
  function Serve(s: Presence, route: Route, ts: string): (r: Outcome)
    requires s.WellFormed()
    ensures r.state.WellFormed() && |r.replies| <= 1
    ensures r.replies == [] <==> route == Drop
    ensures route.Drop? || route.NotFound? || route.PageOnly? ==> r.state == s
    ensures r.replies != [] && r.replies[0].PageReply? ==> r.replies[0].page == PageFor(r.state)
  {
    match route
    case Drop => Outcome(s, [])
    case NotFound => Outcome(s, [Raw(NOT_FOUND_RESPONSE)])
    case ClearAll => Outcome(CLEARED, [PageReply(PageFor(CLEARED))])
    case ToggleUser(u) => Outcome(ToggleSpec(s, u, ts), [PageReply(PageFor(ToggleSpec(s, u, ts)))])
    case PageOnly => Outcome(s, [PageReply(PageFor(s))])
  }

  /** The new state and the replies for a received chain. */
  function Handle(s: Presence, ps: seq<string>, ts: string): (r: Outcome)
    requires s.WellFormed()
    ensures r.state.WellFormed() && |r.replies| <= 1
    ensures r.replies == [] <==> RouteOf(ps) == Drop
    ensures RouteOf(ps).Drop? || RouteOf(ps).NotFound? || RouteOf(ps).PageOnly? ==> r.state == s
    ensures r.replies != [] && r.replies[0].PageReply? ==> r.replies[0].page == PageFor(r.state)
  {
    Serve(s, RouteOf(ps), ts)
  }

  /** A received GET request line with neither parameter, other than the two
      index lines, gets exactly the 404 text and changes nothing; no other
      request gets that outcome. */
  lemma HandleNotFound(s: Presence, ps: seq<string>, ts: string, line: string)
    requires s.WellFormed() && RequestLine(ps) == Some(line)
    ensures Handle(s, ps, ts) == Outcome(s, [Raw(NOT_FOUND_RESPONSE)])
        <==> && StartsWith(line, "GET") && !Contains(line, "user=") && !Contains(line, "clear=")
             && line != "GET /" && line != "GET / HTTP/1.1"
  {
    ClassifyNotFound(line);
  }

  /** A received GET request line holding "clear=true" empties the store and
      gets the page of the empty store, whatever user it also names. */
  lemma HandleClear(s: Presence, ps: seq<string>, ts: string, line: string)
    requires s.WellFormed() && RequestLine(ps) == Some(line)
    requires StartsWith(line, "GET") && Contains(line, "clear=true")
    ensures Handle(s, ps, ts) == Outcome(CLEARED, [PageReply(PageFor(CLEARED))])
  {
    ClassifyMeaning(line);
  }

  /** A received GET request line without "clear=true" whose `user` value is
      extracted toggles that user and gets the page of the new state. */
  lemma HandleToggle(s: Presence, ps: seq<string>, ts: string, line: string, user: string)
    requires s.WellFormed() && RequestLine(ps) == Some(line)
    requires StartsWith(line, "GET") && !Contains(line, "clear=true")
    requires ParamValue(line, "user", USER_PARAM_SIZE) == Some(user)
    ensures Handle(s, ps, ts)
         == Outcome(ToggleSpec(s, user, ts), [PageReply(PageFor(ToggleSpec(s, user, ts)))])
  {
    ParamValueMeaning(line, "user", USER_PARAM_SIZE);
    assert MatchesAt(line, "user=", Find(line, "user").value);
    assert Contains(line, "user=");
    assert RouteOf(ps) == ToggleUser(user);
  }

  /** The bare index request gets the page of the unchanged state. */
  lemma HandleIndex(s: Presence, ps: seq<string>, ts: string)
    requires s.WellFormed() && RequestLine(ps) == Some("GET /")
    ensures Handle(s, ps, ts) == Outcome(s, [PageReply(PageFor(s))])
  {
    IndexPageServed();
  }

  /** The user string `toggle_checkin` receives is the extracted value: the
      buffer holds it followed by a NUL. */
  lemma ValueBufferName(buf: string, v: string)
    requires '\0' !in v && |v| < |buf| && buf[..|v|] == v && buf[|v|] == '\0'
    ensures UntilNul(buf) == v
    ensures NormalizedName(buf) == NormalizedName(v)
  {
    NulFreePrefix(buf, v);
    assert UntilNul(v) == v by {
      NulFreePrefix(v + ['\0'], v);
      UntilNulOfNulFree(v);
    }
  }

  lemma {:induction false} NulFreePrefix(buf: string, v: string)
    requires '\0' !in v && |v| < |buf| && buf[..|v|] == v && buf[|v|] == '\0'
    ensures UntilNul(buf) == v
  {
    if v != [] {
      assert buf[0] == v[0];
      assert buf[1..][..|v| - 1] == v[1..];
      NulFreePrefix(buf[1..], v[1..]);
    }
  }

  lemma {:induction false} UntilNulOfNulFree(s: string)
    requires '\0' !in s
    ensures UntilNul(s) == s
  {
    if s != [] {
      UntilNulOfNulFree(s[1..]);
    }
  }

  /** `http_callback`. A null chain (the peer closed) closes the connection.
      Otherwise the store and the connection change as `Handle` says, the
      chain is released exactly once, and the connection is left open on
      every path, the 404 one included. */
  method HttpRecv(svc: CheckinService, conn: TcpPcb, p: Pbuf?, ts: string)
    requires svc.Valid()
    modifies svc, svc.userPresent, svc.logEntries, conn, p
    ensures svc.Valid()
    ensures p == null ==> conn.closed && conn.written == old(conn.written) && svc.State() == old(svc.State())
    ensures p != null ==>
      && p.frees == old(p.frees) + 1
      && conn.closed == old(conn.closed)
      && svc.State() == Handle(old(svc.State()), p.payloads, ts).state
      && conn.written == old(conn.written) + Handle(old(svc.State()), p.payloads, ts).replies
  {
    if p == null {
      conn.Close();
      return;
    }
    var line := ReadRequestLine(p);
    if line.None? {
      p.Free();
      return;
    }
    ServeLine(svc, conn, line.value, ts);
    p.Free();
  }

  /** The first part of `http_callback`: copy the received data into the
      request buffer and take its first line with `strtok`, cut to fit the
      line buffer; none when the data holds nothing but line breaks. */
  method ReadRequestLine(p: Pbuf) returns (line: Option<string>)
    ensures line == RequestLine(p.payloads)
  {
    var request := CopyRequest(p);
    var token := FirstToken(UntilNul(request));
    if token.None? {
      return None;
    }
    line := Some(token.value[..Min(LINE_SIZE - 1, |token.value|)]);
  }

  /** The part of `http_callback` that examines the request line: drop a
      non-GET line, answer 404 to anything but the index page and the two
      parameters, otherwise clear or toggle and send the page. */
  method ServeLine(svc: CheckinService, conn: TcpPcb, line: string, ts: string)
    requires svc.Valid() && '\0' !in line
    modifies svc, svc.userPresent, svc.logEntries, conn
    ensures svc.Valid()
    ensures conn.closed == old(conn.closed)
    ensures svc.State() == Serve(old(svc.State()), Classify(line), ts).state
    ensures conn.written == old(conn.written) + Serve(old(svc.State()), Classify(line), ts).replies
  {
    if !StartsWith(line, "GET") {
      return;
    }
    if !Contains(line, "user=") && !Contains(line, "clear=")
       && line != "GET / HTTP/1.1" && line != "GET /" {
      conn.Write(Raw(NOT_FOUND_RESPONSE));
      return;
    }
    ApplyAction(svc, line, ts);
    var page := svc.BuildPage();
    conn.Write(PageReply(page));
  }

  /** The action of a served GET line: `clear_log` when it holds
      "clear=true", otherwise `toggle_checkin` with the `user` value when
      there is one. */
  method ApplyAction(svc: CheckinService, line: string, ts: string)
    requires svc.Valid() && '\0' !in line
    requires Classify(line).ClearAll? || Classify(line).ToggleUser? || Classify(line).PageOnly?
    modifies svc, svc.userPresent, svc.logEntries
    ensures svc.Valid()
    ensures svc.State() == Serve(old(svc.State()), Classify(line), ts).state
  {
    ghost var before := svc.State();
    if Contains(line, "clear=true") {
      svc.ClearLog();
    } else {
      var userParam := new char[USER_PARAM_SIZE](_ => '\0');
      var ok := ExtractParameter(line, "user", userParam, USER_PARAM_SIZE);
      if ok {
        ghost var v := ParamValue(line, "user", USER_PARAM_SIZE).value;
        ValueBufferName(userParam[..], v);
        ToggleDependsOnNameOnly(before, userParam[..], v, ts);
        svc.Toggle(userParam[..], ts);
      }
    }
  }
}

=== FILE: checkin_store.dfy ===
/** The presence store of the check-in service: four presence flags for a
    closed list of users, a 20-slot text log with a write cursor, the RGB
    status LED, and the summary the web page is built from. */
module CheckinStore {
  import opened CText

  const USER_COUNT: nat := 4
  const MAX_LOG_ENTRIES: nat := 20
  /** Bytes in one log slot, terminating NUL included. */
  const LOG_ENTRY_SIZE: nat := 64
  /** Bytes in the buffer a user name is copied into, NUL included. */
  const USER_UPPER_SIZE: nat := 16
  /** Bytes in the timestamp buffer (`HH:MM:SS` and the NUL). */
  const TIMESTAMP_SIZE: nat := 9
  /** How many log entries the page lists. */
  const PAGE_ENTRIES: nat := 5

  /** The users that may check in, in flag order. */
  const VALID_USERS: seq<string> := ["JOAO", "MARIA", "CARLOS", "VISITANTE"]

  // ---------------------------------------------------------------------
  // The status LED
  // ---------------------------------------------------------------------

  /** Levels of the red, green and blue LED pins. */
  datatype Rgb = Rgb(red: bool, green: bool, blue: bool)

  const GREEN: Rgb := Rgb(false, true, false)
  const RED: Rgb := Rgb(true, false, false)

  /** The colour `update_led_status` drives. */
  function LedFor(present: seq<bool>): (c: Rgb)
    ensures c == GREEN || c == RED
    ensures c == GREEN <==> exists i :: 0 <= i < |present| && present[i]
  {
    if true in present then GREEN else RED
  }

  /** Number of users marked present. */
  function CountTrue(flags: seq<bool>): (n: nat)
    ensures n <= |flags|
  {
    if flags == [] then 0
    else CountTrue(flags[..|flags| - 1]) + (if flags[|flags| - 1] then 1 else 0)
  }

  /** The count the page shows is positive exactly when someone is present. */
  lemma {:induction false} CountPositiveIffPresent(flags: seq<bool>)
    ensures CountTrue(flags) > 0 <==> true in flags
  {
    if flags != [] {
      var init := flags[..|flags| - 1];
      CountPositiveIffPresent(init);
      assert flags == init + [flags[|flags| - 1]];
    }
  }

  /** The LED is green exactly when the page reports someone present, and red
      otherwise. */
  lemma LedMatchesCount(flags: seq<bool>)
    ensures LedFor(flags) == GREEN <==> CountTrue(flags) > 0
    ensures LedFor(flags) == RED <==> CountTrue(flags) == 0
  {
    CountPositiveIffPresent(flags);
  }

  // ---------------------------------------------------------------------
  // User names
  // ---------------------------------------------------------------------

  /** The name `toggle_checkin` looks up: the C string `user` cut to 15
      characters (a 16-byte copy whose last byte is forced to NUL), every
      character upper-cased in the "C" locale. */
  function NormalizedName(user: string): (name: string)
    ensures |name| == Min(USER_UPPER_SIZE - 1, |UntilNul(user)|)
    ensures forall i :: 0 <= i < |name| ==> name[i] == ToUpper(user[i]) && name[i] != '\0'
  {
    var s := UntilNul(user);
    var n := Min(USER_UPPER_SIZE - 1, |s|);
    seq(n, i requires 0 <= i < n => ToUpper(s[i]))
  }

  /** Position of `name` in the list of valid users, or -1. */
  function UserIndex(name: string): (k: int)
    ensures -1 <= k < USER_COUNT
    ensures k >= 0 ==> VALID_USERS[k] == name
    ensures k == -1 <==> name !in VALID_USERS
  {
    if name == VALID_USERS[0] then 0
    else if name == VALID_USERS[1] then 1
    else if name == VALID_USERS[2] then 2
    else if name == VALID_USERS[3] then 3
    else -1
  }

  /** A user string selects user `k` exactly when it has that user's length
      and agrees with the name letter by letter after upper-casing: the
      match ignores ASCII case and nothing else. */
  lemma UserMatchIgnoresCase(user: string, k: nat)
    requires k < USER_COUNT
    ensures UserIndex(NormalizedName(user)) == k
        <==> (|UntilNul(user)| == |VALID_USERS[k]|
              && forall i :: 0 <= i < |VALID_USERS[k]| ==> ToUpper(user[i]) == VALID_USERS[k][i])
  {
    var name := NormalizedName(user);
    var want := VALID_USERS[k];
    if |UntilNul(user)| == |want| && forall i :: 0 <= i < |want| ==> ToUpper(user[i]) == want[i] {
      assert |name| == |want|;
      assert name == want;
    }
    if UserIndex(name) == k {
      assert name == want;
      assert |want| < USER_UPPER_SIZE - 1;
    }
  }

  /** A name longer than the longest valid one never matches, however it
      would be cut. */
  lemma LongNamesNeverMatch(user: string)
    requires |UntilNul(user)| > 9
    ensures UserIndex(NormalizedName(user)) == -1
  {
    assert |NormalizedName(user)| >= 10;
  }

  /** The values the page's buttons send, in flag order. */
  const BUTTON_VALUES: seq<string> := ["Joao", "Maria", "Carlos", "Visitante"]

  /** Each button of the page selects its own user. */
  lemma ButtonsSelectUsers(k: nat)
    requires k < USER_COUNT
    ensures UserIndex(NormalizedName(BUTTON_VALUES[k])) == k
  {
    if k == 0 {
      JoaoButton();
    } else if k == 1 {
      MariaButton();
    } else if k == 2 {
      CarlosButton();
    } else {
      VisitanteButton();
    }
  }

  lemma JoaoButton()
    ensures NormalizedName("Joao") == "JOAO"
  {
    var u := "Joao";
    assert ToUpper(u[1]) == 'O' && ToUpper(u[2]) == 'A' && ToUpper(u[3]) == 'O';
    UpperOnly(u, "JOAO");
  }

  lemma MariaButton()
    ensures NormalizedName("Maria") == "MARIA"
  {
    var u := "Maria";
    assert ToUpper(u[1]) == 'A' && ToUpper(u[2]) == 'R' && ToUpper(u[3]) == 'I' && ToUpper(u[4]) == 'A';
    UpperOnly(u, "MARIA");
  }

  lemma CarlosButton()
    ensures NormalizedName("Carlos") == "CARLOS"
  {
    var u := "Carlos";
    assert ToUpper(u[1]) == 'A' && ToUpper(u[2]) == 'R' && ToUpper(u[3]) == 'L';
    assert ToUpper(u[4]) == 'O' && ToUpper(u[5]) == 'S';
    UpperOnly(u, "CARLOS");
  }

  lemma VisitanteButton()
    ensures NormalizedName("Visitante") == "VISITANTE"
  {
    var u := "Visitante";
    assert ToUpper(u[1]) == 'I' && ToUpper(u[2]) == 'S' && ToUpper(u[3]) == 'I' && ToUpper(u[4]) == 'T';
    assert ToUpper(u[5]) == 'A' && ToUpper(u[6]) == 'N' && ToUpper(u[7]) == 'T' && ToUpper(u[8]) == 'E';
    UpperOnly(u, "VISITANTE");
  }

  /** A short NUL-free name is only upper-cased. */
  lemma UpperOnly(user: string, name: string)
    requires '\0' !in user && |user| < USER_UPPER_SIZE && |name| == |user|
    requires forall i :: 0 <= i < |user| ==> ToUpper(user[i]) == name[i]
    ensures NormalizedName(user) == name
  {
    assert UntilNul(user) == user;
  }

  /** `toggle_checkin`'s first step: `strncpy` into a 16-byte buffer, force
      the last byte to NUL, and upper-case the string in place. */
  method CopyUpper(user: string) returns (name: string)
    ensures name == NormalizedName(user)
  {
    var buf := new char[USER_UPPER_SIZE];
    ghost var src := UntilNul(user);
    var i := 0;
    var copying := true;
    while i < USER_UPPER_SIZE
      invariant 0 <= i <= USER_UPPER_SIZE
      invariant copying <==> i <= |src|
      invariant copying ==> src[..i] == user[..i]
      invariant forall j :: 0 <= j < i ==> buf[j] == if j < |src| then src[j] else '\0'
    {
      if copying && i < |user| && user[i] != '\0' {
        buf[i] := user[i];
      } else {
        copying := false;
        buf[i] := '\0';
      }
      i := i + 1;
    }
    buf[USER_UPPER_SIZE - 1] := '\0';
    var p := 0;
    while buf[p] != '\0'
      invariant 0 <= p <= Min(USER_UPPER_SIZE - 1, |src|)
      invariant buf[USER_UPPER_SIZE - 1] == '\0'
      invariant forall j :: 0 <= j < p ==> buf[j] == ToUpper(src[j])
      invariant forall j :: p <= j < USER_UPPER_SIZE - 1 ==> buf[j] == if j < |src| then src[j] else '\0'
      decreases USER_UPPER_SIZE - 1 - p
    {
      buf[p] := ToUpper(buf[p]);
      p := p + 1;
    }
    name := buf[..p];
  }

  /** The `strcmp` loop of `toggle_checkin`: the first valid user equal to
      `name`, or -1. */
  method FindUser(name: string) returns (index: int)
    ensures index == UserIndex(name)
  {
    index := -1;
    var i := 0;
    while i < USER_COUNT
      invariant 0 <= i <= USER_COUNT
      invariant index == -1
      invariant forall j :: 0 <= j < i ==> VALID_USERS[j] != name
    {
      if VALID_USERS[i] == name {
        index := i;
        break;
      }
      i := i + 1;
    }
  }

  // ---------------------------------------------------------------------
  // Log lines
  // ---------------------------------------------------------------------

  /** The text `snprintf` leaves in the 9-byte timestamp buffer when given
      `ts`: at most 8 characters. */
  function Stamp(ts: string): (t: string)
    ensures |t| < TIMESTAMP_SIZE && '\0' !in t
    ensures |UntilNul(ts)| < TIMESTAMP_SIZE ==> t == UntilNul(ts)
  {
    var s := UntilNul(ts);
    s[..Min(TIMESTAMP_SIZE - 1, |s|)]
  }

  /** The log line of a toggle of user `k`: "NAME saiu às T" when the user was
      present (a check-out), "NAME entrou às T" otherwise. It is never empty and
      always fits a 64-byte slot, so `snprintf` never truncates it. */
  function LogLine(k: nat, wasPresent: bool, stamp: string): (line: string)
    requires k < USER_COUNT && |stamp| < TIMESTAMP_SIZE
    ensures line != [] && |line| < LOG_ENTRY_SIZE
    ensures StartsWith(line, VALID_USERS[k])
  {
    VALID_USERS[k] + (if wasPresent then " saiu às " else " entrou às ") + stamp
  }

  // ---------------------------------------------------------------------
  // The abstract state and its operations
  // ---------------------------------------------------------------------

  /** The service state: presence flags, log slots (as C strings) and the
      cursor of the next slot to write. */
  datatype Presence = Presence(present: seq<bool>, log: seq<string>, cursor: nat)
  {
    predicate WellFormed()
    {
      |present| == USER_COUNT && |log| == MAX_LOG_ENTRIES && cursor < MAX_LOG_ENTRIES
    }
  }

  /** The state at start-up and after `clear_log`: nobody present, every slot
      empty, cursor at slot 0. */
  const CLEARED: Presence := Presence([false, false, false, false], EmptySlots(MAX_LOG_ENTRIES), 0)

  /** `n` empty log slots. */
  function EmptySlots(n: nat): (slots: seq<string>)
    ensures |slots| == n && forall i :: 0 <= i < n ==> slots[i] == ""
  {
    if n == 0 then [] else EmptySlots(n - 1) + [""]
  }

  /** `toggle_checkin(user)` with the clock reading `ts`. An unknown name
      leaves everything as it was; a known one flips that user's flag, writes
      its log line into the cursor's slot and advances the cursor modulo 20. */
  function ToggleSpec(s: Presence, user: string, ts: string): (t: Presence)
    requires s.WellFormed()
    ensures t.WellFormed()
    ensures UserIndex(NormalizedName(user)) == -1 ==> t == s
  {
    var k := UserIndex(NormalizedName(user));
    if k == -1 then s else Toggled(s, k, Stamp(ts))
  }

  /** The state after a toggle of known user `k` at time `stamp`. */
  function Toggled(s: Presence, k: nat, stamp: string): (t: Presence)
    requires s.WellFormed() && k < USER_COUNT && |stamp| < TIMESTAMP_SIZE
    ensures t.WellFormed()
  {
    Presence(s.present[k := !s.present[k]],
             s.log[s.cursor := LogLine(k, s.present[k], stamp)],
             (s.cursor + 1) % MAX_LOG_ENTRIES)
  }

  /** Only the normalized name of the user string matters to a toggle. */
  lemma ToggleDependsOnNameOnly(s: Presence, user1: string, user2: string, ts: string)
    requires s.WellFormed() && NormalizedName(user1) == NormalizedName(user2)
    ensures ToggleSpec(s, user1, ts) == ToggleSpec(s, user2, ts)
  {
  }

  /** A valid toggle changes exactly one flag and exactly the cursor's slot,
      which receives the check-out line if the user was present and the
      check-in line otherwise. */
  lemma ToggleChangesOneUserAndOneSlot(s: Presence, user: string, ts: string, k: nat)
    requires s.WellFormed() && k < USER_COUNT
    requires UserIndex(NormalizedName(user)) == k
    ensures var t := ToggleSpec(s, user, ts);
      && t.present[k] == !s.present[k]
      && (forall j :: 0 <= j < USER_COUNT && j != k ==> t.present[j] == s.present[j])
      && t.log[s.cursor] == LogLine(k, s.present[k], Stamp(ts))
      && (forall j :: 0 <= j < MAX_LOG_ENTRIES && j != s.cursor ==> t.log[j] == s.log[j])
      && t.cursor == if s.cursor == MAX_LOG_ENTRIES - 1 then 0 else s.cursor + 1
  {
  }

  /** Toggling the same user twice restores every flag, advances the
      cursor by two slots and logs two lines of opposite direction: first
      the one the user's old flag selects, then the other. */
  lemma ToggleTwiceRestoresFlags(s: Presence, user: string, ts1: string, ts2: string)
    requires s.WellFormed()
    ensures ToggleSpec(ToggleSpec(s, user, ts1), user, ts2).present == s.present
    ensures UserIndex(NormalizedName(user)) != -1
        ==> ToggleSpec(ToggleSpec(s, user, ts1), user, ts2).cursor == (s.cursor + 2) % MAX_LOG_ENTRIES
    ensures var k := UserIndex(NormalizedName(user));
      k != -1 ==>
        && ToggleSpec(ToggleSpec(s, user, ts1), user, ts2).log[s.cursor]
             == LogLine(k, s.present[k], Stamp(ts1))
        && ToggleSpec(ToggleSpec(s, user, ts1), user, ts2).log[(s.cursor + 1) % MAX_LOG_ENTRIES]
             == LogLine(k, !s.present[k], Stamp(ts2))
  {
    var k := UserIndex(NormalizedName(user));
    if k != -1 {
      var t := Toggled(s, k, Stamp(ts1));
      assert ToggleSpec(s, user, ts1) == t;
      assert ToggleSpec(t, user, ts2) == Toggled(t, k, Stamp(ts2));
      assert t.present[k := !t.present[k]] == s.present;
    }
  }

  // ---------------------------------------------------------------------
  // The page summary
  // ---------------------------------------------------------------------

  /** What `create_html_page` fills into its template: the number of users
      present and the log entries it lists. */
  datatype Page = Page(presentCount: nat, entries: seq<string>)

  /** The non-empty log slots, in slot order. */
  function Filled(log: seq<string>): (f: seq<string>)
    ensures |f| <= |log|
    ensures forall i :: 0 <= i < |f| ==> f[i] != "" && f[i] in log
    ensures forall i :: 0 <= i < |log| && log[i] != "" ==> log[i] in f
  {
    if log == [] then []
    else Filled(log[..|log| - 1]) + (if log[|log| - 1] != "" then [log[|log| - 1]] else [])
  }

  /** Every non-empty slot is listed when no slot is empty. */
  lemma {:induction false} FilledAllSlots(log: seq<string>)
    requires forall i :: 0 <= i < |log| ==> log[i] != ""
    ensures Filled(log) == log
  {
    if log != [] {
      FilledAllSlots(log[..|log| - 1]);
      assert log[..|log| - 1] + [log[|log| - 1]] == log;
    }
  }

  /** The last `n` elements of `s` (all of them when there are fewer). */
  function LastN<T>(s: seq<T>, n: nat): (r: seq<T>)
    ensures |r| == Min(n, |s|)
    ensures r == s[|s| - |r|..]
  {
    if |s| <= n then s else s[|s| - n..]
  }

  /** The entries the page lists: the last five non-empty slots, in slot
      order. */
  function Window(log: seq<string>): (w: seq<string>)
    ensures |w| == Min(PAGE_ENTRIES, |Filled(log)|)
    ensures forall i :: 0 <= i < |w| ==> w[i] != ""
  {
    LastN(Filled(log), PAGE_ENTRIES)
  }

  /** The summary `create_html_page` fills in for a state. */
  function PageFor(s: Presence): (p: Page)
    ensures p.presentCount <= |s.present|
    ensures |p.entries| <= PAGE_ENTRIES && |p.entries| <= |s.log|
  {
    Page(CountTrue(s.present), Window(s.log))
  }

  /** The count on the page is between 0 and 4, positive exactly when the LED
      is green, and the page lists min(5, k) entries for k non-empty slots. */
  lemma PageSummary(s: Presence)
    requires s.WellFormed()
    ensures PageFor(s).presentCount <= USER_COUNT
    ensures PageFor(s).presentCount > 0 <==> LedFor(s.present) == GREEN
    ensures |PageFor(s).entries| == Min(PAGE_ENTRIES, |Filled(s.log)|)
    ensures PageFor(s).entries == Filled(s.log)[|Filled(s.log)| - |PageFor(s).entries|..]
  {
    LedMatchesCount(s.present);
  }

  /** Window maintenance by one more slot: appending a non-empty entry and
      keeping the last five. */
  lemma LastNStep(s: seq<string>, x: string, n: nat)
    requires n > 0
    ensures LastN(s + [x], n) == (if |s| < n then LastN(s, n) + [x] else (LastN(s, n) + [x])[1..])
  {
  }

  /** The window after one more slot, in terms of the window before it. */
  lemma WindowStep(log: seq<string>, i: nat)
    requires i < |log|
    ensures var w := LastN(Filled(log[..i]), PAGE_ENTRIES);
      LastN(Filled(log[..i + 1]), PAGE_ENTRIES)
        == if log[i] == "" then w
           else if |w| < PAGE_ENTRIES then w + [log[i]]
           else (w + [log[i]])[1..]
  {
    assert log[..i + 1][..i] == log[..i];
    LastNStep(Filled(log[..i]), log[i], PAGE_ENTRIES);
  }

  /** The window lists slots in slot order, not in the order they were
      written: once the cursor has wrapped and every slot is filled, the page
      shows slots 15 to 19 even when the newest line went into slot 0. */
  lemma NewestEntryHiddenAfterWrap(s: Presence, user: string, ts: string)
    requires s.WellFormed() && s.cursor == 0
    requires forall i :: 0 <= i < MAX_LOG_ENTRIES ==> s.log[i] != ""
    requires UserIndex(NormalizedName(user)) != -1
    ensures var t := ToggleSpec(s, user, ts);
      && t.log[0] == LogLine(UserIndex(NormalizedName(user)), s.present[UserIndex(NormalizedName(user))], Stamp(ts))
      && PageFor(t).entries == s.log[15..]
  {
    var t := ToggleSpec(s, user, ts);
    var k := UserIndex(NormalizedName(user));
    assert t.log[0] == LogLine(k, s.present[k], Stamp(ts));
    FilledAllSlots(t.log);
    assert t.log[15..] == s.log[15..];
  }

  /** The window loop of `create_html_page` as written, over `char *entries[5]`:
      `None` once the store `entries[count++]` is made with `count == 5`, one
      past the end of the array. */
  function AsWrittenWindowFrom(filled: seq<string>, i: nat, entries: seq<string>, count: nat): (r: Option<seq<string>>)
    requires i <= |filled| && |entries| == PAGE_ENTRIES && count <= PAGE_ENTRIES
    ensures r.None? <==> count + (|filled| - i) > PAGE_ENTRIES
    ensures r.Some? ==> r.value == entries[..count] + filled[i..]
    decreases |filled| - i
  {
    if i == |filled| then Some(entries[..count])
    else if count == PAGE_ENTRIES then None
    else
      var next := entries[count := filled[i]];
      assert next[..count + 1] + filled[i + 1..] == entries[..count] + filled[i..] by {
        assert next[..count + 1] == entries[..count] + [filled[i]];
        assert filled[i..] == [filled[i]] + filled[i + 1..];
      }
      AsWrittenWindowFrom(filled, i + 1, next, count + 1)
  }

  /** The as-written window is well defined only while at most five slots are
      filled; the sixth non-empty slot is stored outside the array. */
  lemma AsWrittenWindowOverflows(log: seq<string>)
    ensures |Filled(log)| <= PAGE_ENTRIES
        ==> AsWrittenWindowFrom(Filled(log), 0, seq(PAGE_ENTRIES, _ => ""), 0) == Some(Window(log))
    ensures |Filled(log)| > PAGE_ENTRIES
        ==> AsWrittenWindowFrom(Filled(log), 0, seq(PAGE_ENTRIES, _ => ""), 0) == None
  {
    AsWrittenWindowPrefix(Filled(log), 0, seq(PAGE_ENTRIES, _ => ""));
  }

  lemma {:induction false} AsWrittenWindowPrefix(filled: seq<string>, i: nat, entries: seq<string>)
    requires i <= |filled| && i <= PAGE_ENTRIES && |entries| == PAGE_ENTRIES
    requires entries[..i] == filled[..i]
    ensures |filled| <= PAGE_ENTRIES ==> AsWrittenWindowFrom(filled, i, entries, i) == Some(filled)
    ensures |filled| > PAGE_ENTRIES ==> AsWrittenWindowFrom(filled, i, entries, i) == None
    decreases |filled| - i
  {
    if i < |filled| && i < PAGE_ENTRIES {
      var next := entries[i := filled[i]];
      assert next[..i + 1] == filled[..i + 1];
      AsWrittenWindowPrefix(filled, i + 1, next);
    } else if i == |filled| {
      assert filled[..i] == filled;
    }
  }

  // ---------------------------------------------------------------------
  // The service object
  // ---------------------------------------------------------------------

  /** The static state of the service (`user_present`, `log_entries`,
      `log_index`) and the LED pins. */
  class CheckinService {
    var userPresent: array<bool>
    var logEntries: array<string>
    var logIndex: nat
    var led: Rgb

    ghost predicate Valid()
      reads this, userPresent, logEntries
    {
      && userPresent.Length == USER_COUNT
      && logEntries.Length == MAX_LOG_ENTRIES
      && logIndex < MAX_LOG_ENTRIES
      && led == LedFor(userPresent[..])
    }

    ghost function State(): (s: Presence)
      reads this, userPresent, logEntries
      requires Valid()
      ensures s.WellFormed()
    {
      Presence(userPresent[..], logEntries[..], logIndex)
    }

    /** Zero-initialised statics, then the LED update `main` makes at start. */
    constructor ()
      ensures Valid() && State() == CLEARED && led == RED
      ensures fresh(userPresent) && fresh(logEntries)
    {
      userPresent := new bool[USER_COUNT](_ => false);
      logEntries := new string[MAX_LOG_ENTRIES](_ => "");
      logIndex := 0;
      led := RED;
      new;
      assert userPresent[..] == [false, false, false, false];
      assert logEntries[..] == CLEARED.log;
    }

    /** `update_led_status`: green if a flag is set, red otherwise. */
    method UpdateLed()
      requires userPresent.Length == USER_COUNT
      modifies this`led
      ensures led == LedFor(userPresent[..])
    {
      var any := false;
      var i := 0;
      while i < USER_COUNT
        invariant 0 <= i <= USER_COUNT
        invariant any <==> exists j :: 0 <= j < i && userPresent[j]
        decreases USER_COUNT - i, if any then 0 else 1
      {
        if userPresent[i] {
          any := true;
          break;
        }
        i := i + 1;
      }
      if any {
        led := GREEN;
      } else {
        led := RED;
      }
    }

    /** `toggle_checkin`; the clock reading is the parameter `ts`. */
    method Toggle(user: string, ts: string)
      requires Valid()
      modifies userPresent, logEntries, this`logIndex, this`led
      ensures Valid()
      ensures State() == ToggleSpec(old(State()), user, ts)
    {
      var name := CopyUpper(user);
      var index := FindUser(name);
      if index == -1 {
        return;
      }
      var stamp := Stamp(ts);
      Record(index, stamp);
    }

    /** The second half of `toggle_checkin`, once user `index` is known:
        flip the flag, log the matching line at the cursor, advance the
        cursor and update the LED. */
    method Record(index: nat, stamp: string)
      requires Valid() && index < USER_COUNT && |stamp| < TIMESTAMP_SIZE
      modifies userPresent, logEntries, this`logIndex, this`led
      ensures Valid()
      ensures State() == Toggled(old(State()), index, stamp)
    {
      ghost var s0 := State();
      var line: string;
      if userPresent[index] {
        userPresent[index] := false;
        line := LogLine(index, true, stamp);
      } else {
        userPresent[index] := true;
        line := LogLine(index, false, stamp);
      }
      assert userPresent[..] == s0.present[index := !s0.present[index]];
      logEntries[logIndex] := line;
      logIndex := (logIndex + 1) % MAX_LOG_ENTRIES;
      UpdateLed();
    }

    /** `clear_log`: nobody present, every slot emptied, cursor back to 0. The
        new state does not depend on the old one, so clearing twice is
        clearing once. */
    method ClearLog()
      requires Valid()
      modifies userPresent, logEntries, this`logIndex, this`led
      ensures Valid() && State() == CLEARED && led == RED
    {
      for i := 0 to USER_COUNT
        invariant forall j :: 0 <= j < i ==> !userPresent[j]
      {
        userPresent[i] := false;
      }
      for i := 0 to MAX_LOG_ENTRIES
        invariant forall j :: 0 <= j < i ==> logEntries[j] == ""
        invariant forall j :: 0 <= j < USER_COUNT ==> !userPresent[j]
      {
        logEntries[i] := "";
      }
      logIndex := 0;
      UpdateLed();
      assert userPresent[..] == CLEARED.present;
      assert logEntries[..] == CLEARED.log;
    }

    /** `create_html_page` without the HTML text: the number of flags set and
        the last five non-empty slots in slot order. */
    method BuildPage() returns (page: Page)
      requires Valid()
      ensures page == PageFor(State())
    {
      var presentCount := CountPresent();
      var entries := CollectWindow();
      page := Page(presentCount, entries);
    }

    /** The counting loop of `create_html_page`. */
    method CountPresent() returns (presentCount: nat)
      requires userPresent.Length == USER_COUNT
      ensures presentCount == CountTrue(userPresent[..])
    {
      presentCount := 0;
      for i := 0 to USER_COUNT
        invariant presentCount == CountTrue(userPresent[..i])
      {
        assert userPresent[..i + 1][..i] == userPresent[..i];
        if userPresent[i] {
          presentCount := presentCount + 1;
        }
      }
      assert userPresent[..USER_COUNT] == userPresent[..];
    }

    /** The window loop of `create_html_page`. The window array has six
        slots, so the sixth entry is stored inside it before the shift. */
    method CollectWindow() returns (window: seq<string>)
      requires logEntries.Length == MAX_LOG_ENTRIES
      ensures window == Window(logEntries[..])
    {
      var entries := new string[PAGE_ENTRIES + 1];
      var count := 0;
      for i := 0 to MAX_LOG_ENTRIES
        invariant 0 <= count <= PAGE_ENTRIES
        invariant entries[..count] == LastN(Filled(logEntries[..i]), PAGE_ENTRIES)
      {
        WindowStep(logEntries[..], i);
        assert logEntries[..][..i] == logEntries[..i];
        assert logEntries[..][..i + 1] == logEntries[..i + 1];
        if logEntries[i] != "" {
          count := AddEntry(entries, count, logEntries[i]);
        }
      }
      assert logEntries[..MAX_LOG_ENTRIES] == logEntries[..];
      window := entries[..count];
    }
  }

  /** One step of the window loop of `create_html_page`: store the entry
      after the `count` collected ones and, once there are six, drop the
      oldest. */
  method AddEntry(entries: array<string>, count: nat, x: string) returns (newCount: nat)
    requires entries.Length == PAGE_ENTRIES + 1 && count <= PAGE_ENTRIES
    modifies entries
    ensures newCount == Min(count + 1, PAGE_ENTRIES)
    ensures entries[..newCount]
         == if count < PAGE_ENTRIES then old(entries[..count]) + [x] else (old(entries[..count]) + [x])[1..]
  {
    ghost var prev := entries[..count];
    entries[count] := x;
    newCount := count + 1;
    assert entries[..newCount] == prev + [x];
    if newCount > PAGE_ENTRIES {
      DropOldest(entries);
      newCount := PAGE_ENTRIES;
    }
  }

  /** The shift in `create_html_page` that discards the oldest of six
      collected entries. */
  method DropOldest(entries: array<string>)
    requires entries.Length == PAGE_ENTRIES + 1
    modifies entries
    ensures entries[..PAGE_ENTRIES] == old(entries[..])[1..]
  {
    ghost var before := entries[..];
    for j := 0 to PAGE_ENTRIES
      invariant forall m :: 0 <= m < j ==> entries[m] == before[m + 1]
      invariant forall m :: j <= m < entries.Length ==> entries[m] == before[m]
    {
      entries[j] := entries[j + 1];
    }
  }
}

=== FILE: ctext.dfy ===
/** The pieces of the C string library the core relies on: NUL-terminated
    text, `strstr` (leftmost substring search), `strncmp` used as a prefix
    test, and `toupper` in the "C" locale. Text is `seq<char>`; a C string is
    the part of a buffer before its first NUL. */
module CText {

  datatype Option<T> = None | Some(value: T)

  function Min(a: int, b: int): int { if a <= b then a else b }

  /** `pat` occurs in `s` starting at index `i`. */
  predicate MatchesAt(s: string, pat: string, i: nat)
  {
    i + |pat| <= |s| && s[i..i + |pat|] == pat
  }

  /** Leftmost occurrence of `pat` in `s` at or after `i`. */
  function FindFrom(s: string, pat: string, i: nat): (r: Option<nat>)
    requires i <= |s|
    decreases |s| - i
    ensures r.Some? ==> i <= r.value && MatchesAt(s, pat, r.value)
    ensures r.Some? ==> forall j :: i <= j < r.value ==> !MatchesAt(s, pat, j)
    ensures r.None? ==> forall j :: i <= j <= |s| ==> !MatchesAt(s, pat, j)
  {
    if MatchesAt(s, pat, i) then Some(i)
    else if i == |s| then None
    else FindFrom(s, pat, i + 1)
  }

  /** `strstr(s, pat)`: the index of the leftmost occurrence, or none. */
  function Find(s: string, pat: string): (r: Option<nat>)
    ensures r.Some? ==> MatchesAt(s, pat, r.value)
    ensures r.Some? ==> forall j :: 0 <= j < r.value ==> !MatchesAt(s, pat, j)
    ensures r.None? <==> forall j :: 0 <= j <= |s| ==> !MatchesAt(s, pat, j)
  {
    FindFrom(s, pat, 0)
  }

  /** `strstr(s, pat) != NULL` */
  predicate Contains(s: string, pat: string)
  {
    Find(s, pat).Some?
  }

  /** `strncmp(s, pre, |pre|) == 0` for a NUL-free `s`: the comparison stops
      with a difference when `s` ends before `pre` does. */
  predicate StartsWith(s: string, pre: string)
  {
    |pre| <= |s| && s[..|pre|] == pre
  }

  /** The comparison character by character: `s` has every character of
      `pre` at the same position. */
  lemma StartsWithPointwise(s: string, pre: string)
    ensures StartsWith(s, pre) <==> |pre| <= |s| && forall i :: 0 <= i < |pre| ==> s[i] == pre[i]
  {
    if |pre| <= |s| && forall i :: 0 <= i < |pre| ==> s[i] == pre[i] {
      assert s[..|pre|] == pre;
    }
  }

  /** The C string held by a buffer: everything before the first NUL. */
  function UntilNul(s: string): (r: string)
    ensures '\0' !in r
    ensures |r| <= |s| && r == s[..|r|]
    ensures |r| < |s| ==> s[|r|] == '\0'
  {
    if s == [] || s[0] == '\0' then [] else [s[0]] + UntilNul(s[1..])
  }

  predicate IsLower(c: char) { 'a' <= c <= 'z' }
  predicate IsUpper(c: char) { 'A' <= c <= 'Z' }
  predicate IsDigit(c: char) { '0' <= c <= '9' }

  /** `toupper` in the "C" locale: only the 26 ASCII lower-case letters change. */
  function ToUpper(c: char): (u: char)
    ensures !IsLower(u)
    ensures IsLower(c) ==> IsUpper(u) && u as int == c as int - 32
    ensures !IsLower(c) ==> u == c
  {
    if IsLower(c) then (c as int - 32) as char else c
  }
}

=== FILE: ssd1306_h.dfy ===
/** Constants shared by the SSD1306 driver: default geometry, the I2C
    address, the control bytes of the controller's I2C write format
    (section 8.1.5 of the SSD1306 datasheet) and the command opcodes of its
    command table (section 9). */
module Ssd1306Defs {

  /** `uint8_t`. Arithmetic on it happens in `int`; storing the result back
      into a `uint8_t` wraps it, which `Wrap8` makes explicit. */
  type byte = b: int | 0 <= b < 256

  /** C's conversion of an `int` to `uint8_t`: reduction modulo 256. */
  function Wrap8(v: int): (b: byte)
    ensures (b - v) % 256 == 0
    ensures 0 <= v < 256 ==> b == v
  {
    v % 256
  }

  /** Bitwise or of two bytes, as in `SSD1306_SET_DISP | 0x01`. */
  function Or8(a: byte, b: byte): byte
  {
    ((a as bv8) | (b as bv8)) as int
  }

  /** The option bits the driver ors into opcodes are clear in those opcodes,
      so each or yields the neighbouring opcode. */
  lemma OpcodeBits()
    ensures Or8(0xA0, 0x01) == 0xA1 && Or8(0xC0, 0x08) == 0xC8 && Or8(0xAE, 0x01) == 0xAF
    ensures Or8(0x2E, 0x01) == 0x2F && Or8(0x2E, 0x00) == 0x2E && Or8(0x26, 0x00) == 0x26
  {
  }

  const SSD1306_WIDTH: nat := 128
  const SSD1306_HEIGHT: nat := 64
  const SSD1306_I2C_ADDR: byte := 0x3C

  const SSD1306_SET_MEM_MODE: byte := 0x20
  const SSD1306_SET_COL_ADDR: byte := 0x21
  const SSD1306_SET_PAGE_ADDR: byte := 0x22
  const SSD1306_SET_HORIZ_SCROLL: byte := 0x26
  const SSD1306_SET_SCROLL: byte := 0x2E
  const SSD1306_SET_DISP_START_LINE: byte := 0x40
  const SSD1306_SET_CONTRAST: byte := 0x81
  const SSD1306_SET_CHARGE_PUMP: byte := 0x8D
  const SSD1306_SET_SEG_REMAP: byte := 0xA0
  const SSD1306_SET_ENTIRE_ON: byte := 0xA4
  const SSD1306_SET_ALL_ON: byte := 0xA5
  const SSD1306_SET_NORM_DISP: byte := 0xA6
  const SSD1306_SET_INV_DISP: byte := 0xA7
  const SSD1306_SET_MUX_RATIO: byte := 0xA8
  const SSD1306_SET_DISP: byte := 0xAE
  const SSD1306_SET_COM_OUT_DIR: byte := 0xC0
  const SSD1306_SET_DISP_OFFSET: byte := 0xD3
  const SSD1306_SET_DISP_CLK_DIV: byte := 0xD5
  const SSD1306_SET_PRECHARGE: byte := 0xD9
  const SSD1306_SET_COM_PIN_CFG: byte := 0xDA
  const SSD1306_SET_VCOM_DESEL: byte := 0xDB

  /** Height in pixels of one page: a page is one byte per column. */
  const SSD1306_PAGE_HEIGHT: nat := 8

  /** First byte of a write that carries one command byte. */
  const SSD1306_CONTROL_CMD: byte := 0x80
  /** First byte of a write whose remaining bytes are all display data. */
  const SSD1306_CONTROL_DATA: byte := 0x40

  /** Number of whole pages a display of `height` pixels holds. */
  function NumPages(height: nat): (pages: nat)
    ensures pages * SSD1306_PAGE_HEIGHT <= height < (pages + 1) * SSD1306_PAGE_HEIGHT
  {
    height / SSD1306_PAGE_HEIGHT
  }

  /** Index in the framebuffer of the byte for column `col` of page `page`:
      pages are stored one after another, each `width` bytes long, after the
      control byte at index 0. */
  function CellIndex(width: nat, page: nat, col: nat): nat
  {
    page * width + col + 1
  }

  /** Framebuffer size: one byte per page-column plus the leading control
      byte. `CellsFit` says every page-column has its own byte after the
      control byte and `LastCellIsLast` that the last one uses the last
      byte. */
  function BufLen(pages: nat, width: nat): (n: nat)
    ensures n >= 1
  {
    pages * width + 1
  }

  /** The buffer has no spare byte: the last page-column uses its last byte. */
  lemma LastCellIsLast(pages: nat, width: nat)
    requires pages > 0 && width > 0
    ensures CellIndex(width, pages - 1, width - 1) == BufLen(pages, width) - 1
  {
  }

  /** Every page-column cell lies after the control byte and inside the
      buffer. */
  lemma CellsFit(pages: nat, width: nat)
    ensures forall page: nat, col: nat :: page < pages && col < width ==> 1 <= CellIndex(width, page, col) < BufLen(pages, width)
  {
    forall page: nat, col: nat | page < pages && col < width
      ensures CellIndex(width, page, col) < BufLen(pages, width)
    {
      assert page * width <= (pages - 1) * width by {
        MulLeq(page, pages - 1, width);
      }
    }
  }

  lemma MulLeq(a: nat, b: nat, c: nat)
    requires a <= b
    ensures a * c <= b * c
  {
  }

  const SSD1306_NUM_PAGES: nat := NumPages(SSD1306_HEIGHT)
  const SSD1306_BUF_LEN: nat := BufLen(SSD1306_NUM_PAGES, SSD1306_WIDTH)

  /** The default 128x64 panel: 8 pages and a 1025-byte buffer. */
  lemma DefaultGeometry()
    ensures SSD1306_NUM_PAGES == 8
    ensures SSD1306_BUF_LEN == 1025
    ensures SSD1306_BUF_LEN == SSD1306_NUM_PAGES * SSD1306_WIDTH + 1
  {
  }

  /** A receiver can tell a command write from a data write by its first byte. */
  lemma ControlBytesDistinct()
    ensures SSD1306_CONTROL_CMD != SSD1306_CONTROL_DATA
  {
  }
}

=== FILE: ssd1306_i2c.dfy ===
/** The SSD1306 bitmap driver: a framebuffer whose byte 0 is the data
    control byte, drawing primitives that update it in place, and the I2C
    writes that configure the controller and transfer the framebuffer. */
module Ssd1306 {
  import opened CText
  import opened Ssd1306Defs

  // ---------------------------------------------------------------------
  // The bus
  // ---------------------------------------------------------------------

  /** One `i2c_write_blocking` call: the target address and the bytes sent. */
  datatype I2cWrite = I2cWrite(addr: byte, bytes: seq<byte>)

  /** The I2C bus, seen as the ordered list of writes made on it. */
  class I2cBus {
    var writes: seq<I2cWrite>

    constructor ()
      ensures writes == []
    {
      writes := [];
    }
  }

  /** The write that carries one command byte. */
  function CmdWrite(cmd: byte): I2cWrite
  {
    I2cWrite(SSD1306_I2C_ADDR, [SSD1306_CONTROL_CMD, cmd])
  }

  /** The write that carries a run of display data. */
  function DataWrite(payload: seq<byte>): I2cWrite
  {
    I2cWrite(SSD1306_I2C_ADDR, [SSD1306_CONTROL_DATA] + payload)
  }

  /** One command write per command byte, in the order given. */
  function CmdWrites(cmds: seq<byte>): (ws: seq<I2cWrite>)
    ensures |ws| == |cmds|
    ensures forall i :: 0 <= i < |cmds| ==> ws[i] == CmdWrite(cmds[i])
  {
    if cmds == [] then [] else CmdWrites(cmds[..|cmds| - 1]) + [CmdWrite(cmds[|cmds| - 1])]
  }

  /** How the controller reads one write addressed to it. */
  datatype Received = Command(op: byte) | Data(payload: seq<byte>) | Other

  function Decode(w: I2cWrite): Received
  {
    if w.addr != SSD1306_I2C_ADDR || |w.bytes| == 0 then Other
    else if w.bytes[0] == SSD1306_CONTROL_CMD && |w.bytes| == 2 then Command(w.bytes[1])
    else if w.bytes[0] == SSD1306_CONTROL_DATA then Data(w.bytes[1..])
    else Other
  }

  /** The command bytes carried by a run of writes that are all command writes. */
  function CommandStream(ws: seq<I2cWrite>): Option<seq<byte>>
  {
    if ws == [] then Some([])
    else match (CommandStream(ws[..|ws| - 1]), Decode(ws[|ws| - 1]))
      case (Some(prefix), Command(op)) => Some(prefix + [op])
      case _ => None
  }

  /** The control byte tells the controller which kind of write it gets. */
  lemma DecodeFraming(cmd: byte, payload: seq<byte>)
    ensures Decode(CmdWrite(cmd)) == Command(cmd)
    ensures Decode(DataWrite(payload)) == Data(payload)
  {
    assert DataWrite(payload).bytes[1..] == payload;
  }

  /** The controller reads back exactly the command bytes that were framed. */
  lemma {:induction false} CommandStreamRoundTrip(cmds: seq<byte>)
    ensures CommandStream(CmdWrites(cmds)) == Some(cmds)
  {
    if cmds != [] {
      var ws := CmdWrites(cmds);
      var init := cmds[..|cmds| - 1];
      assert ws[..|ws| - 1] == CmdWrites(init);
      CommandStreamRoundTrip(init);
      DecodeFraming(cmds[|cmds| - 1], []);
      assert init + [cmds[|cmds| - 1]] == cmds;
    }
  }

  /** `SSD1306_send_cmd`: one two-byte command write. */
  method SendCmd(bus: I2cBus, cmd: byte)
    modifies bus
    ensures bus.writes == old(bus.writes) + [CmdWrite(cmd)]
  {
    var buffer := [SSD1306_CONTROL_CMD, cmd];
    bus.writes := bus.writes + [I2cWrite(SSD1306_I2C_ADDR, buffer)];
  }

  /** `SSD1306_send_cmd_list`: each byte of the list as its own command write. */
  method SendCmdList(bus: I2cBus, cmds: seq<byte>)
    modifies bus
    ensures bus.writes == old(bus.writes) + CmdWrites(cmds)
  {
    var i := 0;
    while i < |cmds|
      invariant 0 <= i <= |cmds|
      invariant bus.writes == old(bus.writes) + CmdWrites(cmds[..i])
    {
      SendCmd(bus, cmds[i]);
      assert cmds[..i + 1][..i] == cmds[..i];
      i := i + 1;
    }
    assert cmds[..i] == cmds;
  }

  /** `SSD1306_send_buf`: one write of the data control byte followed by the
      first `buflen` bytes of `buf`; nothing when the scratch allocation fails. */
  method SendBuf(bus: I2cBus, buf: seq<byte>, buflen: int, allocOk: bool)
    requires 0 <= buflen <= |buf|
    modifies bus
    ensures bus.writes == old(bus.writes) + (if allocOk then [DataWrite(buf[..buflen])] else [])
  {
    if !allocOk {
      return;
    }
    var temp := new byte[buflen + 1];
    temp[0] := SSD1306_CONTROL_DATA;
    forall i | 0 <= i < buflen {
      temp[i + 1] := buf[i];
    }
    assert temp[..] == [SSD1306_CONTROL_DATA] + buf[..buflen];
    bus.writes := bus.writes + [I2cWrite(SSD1306_I2C_ADDR, temp[..])];
  }

  // ---------------------------------------------------------------------
  // Scrolling and render areas
  // ---------------------------------------------------------------------

  /** The horizontal-scroll set-up followed by the scroll on/off command. */
  function ScrollCommands(on: bool): seq<byte>
  {
    [Or8(SSD1306_SET_HORIZ_SCROLL, 0x00), 0x00, 0x00, 0x00, 0x03, 0x00, 0xFF,
     Or8(SSD1306_SET_SCROLL, if on then 0x01 else 0x00)]
  }

  /** Only the last command depends on `on`: 0x2F starts scrolling, 0x2E stops it. */
  lemma ScrollCommandBytes(on: bool)
    ensures ScrollCommands(on) == [0x26, 0x00, 0x00, 0x00, 0x03, 0x00, 0xFF, if on then 0x2F else 0x2E]
  {
  }

  /** `SSD1306_scroll` */
  method Scroll(bus: I2cBus, on: bool)
    modifies bus
    ensures bus.writes == old(bus.writes) + CmdWrites(ScrollCommands(on))
  {
    var cmds := ScrollCommands(on);
    SendCmdList(bus, cmds);
  }

  /** Number of page-column bytes in the rectangle, computed in `int` as C
      does after promoting the `uint8_t` bounds. */
  function AreaLen(startCol: byte, endCol: byte, startPage: byte, endPage: byte): int
  {
    (endCol - startCol + 1) * (endPage - startPage + 1)
  }

  /** A rectangle of columns and pages addressed by one transfer. */
  class RenderArea {
    var startCol: byte
    var endCol: byte
    var startPage: byte
    var endPage: byte
    var buflen: int

    constructor (startCol: byte, endCol: byte, startPage: byte, endPage: byte)
      ensures this.startCol == startCol && this.endCol == endCol
      ensures this.startPage == startPage && this.endPage == endPage
      ensures buflen == 0
    {
      this.startCol, this.endCol := startCol, endCol;
      this.startPage, this.endPage := startPage, endPage;
      buflen := 0;
    }

    /** `calc_render_area_buflen` */
    method CalcBuflen()
      modifies this`buflen
      ensures buflen == AreaLen(startCol, endCol, startPage, endPage)
    {
      buflen := (endCol - startCol + 1) * (endPage - startPage + 1);
    }
  }

  /** The writes of one render: the column and page windows, then the data. */
  function RenderWrites(startCol: byte, endCol: byte, startPage: byte, endPage: byte,
                        payload: seq<byte>, allocOk: bool): (ws: seq<I2cWrite>)
    ensures |ws| == if allocOk then 7 else 6
    ensures CommandStream(ws[..6]) == Some([SSD1306_SET_COL_ADDR, startCol, endCol, SSD1306_SET_PAGE_ADDR, startPage, endPage])
    ensures allocOk ==> Decode(ws[6]) == Data(payload)
  {
    CommandStreamRoundTrip([SSD1306_SET_COL_ADDR, startCol, endCol, SSD1306_SET_PAGE_ADDR, startPage, endPage]);
    DecodeFraming(0, payload);
    assert (CmdWrites([SSD1306_SET_COL_ADDR, startCol, endCol, SSD1306_SET_PAGE_ADDR, startPage, endPage])
      + (if allocOk then [DataWrite(payload)] else []))[..6]
      == CmdWrites([SSD1306_SET_COL_ADDR, startCol, endCol, SSD1306_SET_PAGE_ADDR, startPage, endPage]);
    CmdWrites([SSD1306_SET_COL_ADDR, startCol, endCol, SSD1306_SET_PAGE_ADDR, startPage, endPage])
    + (if allocOk then [DataWrite(payload)] else [])
  }

  /** `render`: set the column and page windows of `area`, then send its
      `buflen` bytes of `buf` as one data transfer. */
  method Render(bus: I2cBus, buf: seq<byte>, area: RenderArea, allocOk: bool)
    requires 0 <= area.buflen <= |buf|
    modifies bus
    ensures bus.writes == old(bus.writes)
      + RenderWrites(area.startCol, area.endCol, area.startPage, area.endPage, buf[..area.buflen], allocOk)
  {
    var cmds := [SSD1306_SET_COL_ADDR, area.startCol, area.endCol,
                 SSD1306_SET_PAGE_ADDR, area.startPage, area.endPage];
    SendCmdList(bus, cmds);
    SendBuf(bus, buf, area.buflen, allocOk);
  }

  /** The area spanning every column and page has exactly one byte per
      framebuffer byte after the control byte. */
  lemma FullAreaIsFramebuffer(width: byte, pages: byte)
    requires 1 <= width && 1 <= pages
    ensures AreaLen(0, width - 1, 0, pages - 1) == BufLen(pages, width) - 1
  {
  }

  // ---------------------------------------------------------------------
  // Glyphs
  // ---------------------------------------------------------------------

  /** Glyphs in the font table: blank, A to Z, 0 to 9; each is 8 bytes. */
  const FONT_GLYPHS: nat := 37
  const GLYPH_WIDTH: nat := 8

  /** Font-table slot of a character: letters of either case share a slot. */
  function GlyphIndex(ch: char): (idx: nat)
    ensures idx < FONT_GLYPHS
    ensures IsUpper(ToUpper(ch)) ==> 1 <= idx <= 26
    ensures IsDigit(ch) ==> 27 <= idx <= 36
    ensures idx == 0 <==> !IsUpper(ToUpper(ch)) && !IsDigit(ch)
  {
    var c := ToUpper(ch);
    if IsUpper(c) then c as int - 'A' as int + 1
    else if IsDigit(c) then c as int - '0' as int + 27
    else 0
  }

  /** Both cases of a letter draw the same glyph. */
  lemma GlyphIndexIgnoresCase(ch: char)
    ensures GlyphIndex(ch) == GlyphIndex(ToUpper(ch))
  {
  }

  /** Two characters share a non-blank glyph only if they are the same
      letter or digit up to case. */
  lemma GlyphIndexInjective(a: char, b: char)
    requires GlyphIndex(a) == GlyphIndex(b) != 0
    ensures ToUpper(a) == ToUpper(b)
  {
  }

  function Glyph(font: seq<byte>, idx: nat): (g: seq<byte>)
    requires |font| >= FONT_GLYPHS * GLYPH_WIDTH && idx < FONT_GLYPHS
    ensures |g| == GLYPH_WIDTH
  {
    font[idx * GLYPH_WIDTH..idx * GLYPH_WIDTH + GLYPH_WIDTH]
  }

  /** The bounds test of `WriteChar`, in C's `int` arithmetic. */
  predicate OnScreen(width: nat, height: nat, x: int, y: int)
  {
    x <= width - 8 && y <= height - 8
  }

  /** Index of the first byte of the glyph cell at pixel (x, y). */
  function GlyphAt(width: nat, x: nat, y: nat): nat
  {
    CellIndex(width, y / SSD1306_PAGE_HEIGHT, x)
  }

  /** Every on-screen glyph cell lies after the control byte and inside the buffer. */
  lemma GlyphCellInBounds(width: nat, height: nat, x: nat, y: nat)
    requires OnScreen(width, height, x, y)
    ensures 1 <= GlyphAt(width, x, y)
    ensures GlyphAt(width, x, y) + GLYPH_WIDTH <= BufLen(NumPages(height), width)
  {
    var page := y / SSD1306_PAGE_HEIGHT;
    assert page < NumPages(height);
    CellsFit(NumPages(height), width);
    assert CellIndex(width, page, x + 7) < BufLen(NumPages(height), width);
  }

  /** The framebuffer after drawing `ch` at (x, y): the 8 bytes of its glyph
      replace the cell when it is on screen, and nothing changes otherwise. */
  function PutGlyph(fb: seq<byte>, width: nat, height: nat, x: nat, y: nat, ch: char, font: seq<byte>): (r: seq<byte>)
    requires |fb| == BufLen(NumPages(height), width)
    requires |font| >= FONT_GLYPHS * GLYPH_WIDTH
    ensures |r| == |fb| && r[0] == fb[0]
    ensures !OnScreen(width, height, x, y) ==> r == fb
  {
    if !OnScreen(width, height, x, y) then fb
    else
      GlyphCellInBounds(width, height, x, y);
      var at := GlyphAt(width, x, y);
      fb[..at] + Glyph(font, GlyphIndex(ch)) + fb[at + GLYPH_WIDTH..]
  }

  /** An on-screen glyph replaces exactly the 8 bytes of its cell, byte `i`
      of the glyph going to offset `i`. */
  lemma PutGlyphCells(fb: seq<byte>, width: nat, height: nat, x: nat, y: nat, ch: char, font: seq<byte>)
    requires |fb| == BufLen(NumPages(height), width)
    requires |font| >= FONT_GLYPHS * GLYPH_WIDTH
    requires OnScreen(width, height, x, y)
    ensures GlyphAt(width, x, y) + GLYPH_WIDTH <= |fb|
    ensures forall i :: 0 <= i < |fb| ==>
      PutGlyph(fb, width, height, x, y, ch, font)[i]
        == if GlyphAt(width, x, y) <= i < GlyphAt(width, x, y) + GLYPH_WIDTH
           then font[GlyphIndex(ch) * GLYPH_WIDTH + (i - GlyphAt(width, x, y))]
           else fb[i]
  {
    GlyphCellInBounds(width, height, x, y);
  }

  /** Drawing the rest of `s` from character `k` is putting character `k`,
      then drawing the rest from character `k + 1` one step further right. */
  lemma DrawnStep(before: seq<byte>, after: seq<byte>, width: nat, height: nat, x: nat, y: nat,
                  step: nat, s: string, font: seq<byte>, k: nat)
    requires |before| == BufLen(NumPages(height), width)
    requires |font| >= FONT_GLYPHS * GLYPH_WIDTH
    requires k < |s|
    requires after == PutGlyph(before, width, height, x, y, s[k], font)
    ensures Drawn(before, width, height, x, y, step, s[k..], font)
         == Drawn(after, width, height, x + step, y, step, s[k + 1..], font)
  {
    assert s[k..][0] == s[k] && s[k..][1..] == s[k + 1..];
  }

  /** The copy loop of `WriteChar`: the 8 bytes of glyph `idx` overwrite
      the 8 framebuffer bytes from `at` on, and nothing else changes. */
  method CopyGlyph(buf: array<byte>, at: nat, font: seq<byte>, idx: nat)
    requires |font| >= FONT_GLYPHS * GLYPH_WIDTH && idx < FONT_GLYPHS
    requires at + GLYPH_WIDTH <= buf.Length
    modifies buf
    ensures buf[..] == old(buf[..])[..at] + Glyph(font, idx) + old(buf[..])[at + GLYPH_WIDTH..]
  {
    for i := 0 to 8
      invariant forall j :: at <= j < at + i ==> buf[j] == font[idx * 8 + (j - at)]
      invariant forall j :: 0 <= j < buf.Length && !(at <= j < at + i) ==> buf[j] == old(buf[j])
    {
      buf[at + i] := font[idx * 8 + i];
    }
  }

  /** The framebuffer after drawing `s` with its first character at column
      `x` and each next one `step` columns further right, on the text row of
      `y`. */
  function Drawn(fb: seq<byte>, width: nat, height: nat, x: nat, y: nat, step: nat,
                 s: string, font: seq<byte>): (r: seq<byte>)
    requires |fb| == BufLen(NumPages(height), width)
    requires |font| >= FONT_GLYPHS * GLYPH_WIDTH
    ensures |r| == |fb| && r[0] == fb[0]
    decreases |s|
  {
    if s == [] then fb
    else Drawn(PutGlyph(fb, width, height, x, y, s[0], font), width, height, x + step, y, step, s[1..], font)
  }

  /** No wrapping: once a character starts past the right edge, it and every
      character after it are dropped. */
  lemma {:induction false} DrawnDropsOffscreenTail(fb: seq<byte>, width: nat, height: nat, x: nat, y: nat,
                                                   step: nat, s: string, font: seq<byte>, m: nat)
    requires |fb| == BufLen(NumPages(height), width)
    requires |font| >= FONT_GLYPHS * GLYPH_WIDTH
    requires m <= |s|
    requires Column(x, step, m) > width - 8
    ensures Drawn(fb, width, height, x, y, step, s, font) == Drawn(fb, width, height, x, y, step, s[..m], font)
    decreases |s|
  {
    if m == 0 {
      DrawnOffscreen(fb, width, height, x, y, step, s, font);
    } else {
      DrawnDropsOffscreenTail(PutGlyph(fb, width, height, x, y, s[0], font), width, height,
                              x + step, y, step, s[1..], font, m - 1);
      assert s[1..][..m - 1] == s[..m][1..];
    }
  }

  /** A string that starts past the right edge draws nothing. */
  lemma {:induction false} DrawnOffscreen(fb: seq<byte>, width: nat, height: nat, x: nat, y: nat,
                                          step: nat, s: string, font: seq<byte>)
    requires |fb| == BufLen(NumPages(height), width)
    requires |font| >= FONT_GLYPHS * GLYPH_WIDTH
    requires x > width - 8
    ensures Drawn(fb, width, height, x, y, step, s, font) == fb
    decreases |s|
  {
    if s != [] {
      DrawnOffscreen(fb, width, height, x + step, y, step, s[1..], font);
    }
  }

  /** Drawing a string leaves every byte before the cell of its first
      character alone: the glyphs only move right along the row. */
  lemma {:induction false} DrawnKeepsEarlier(fb: seq<byte>, width: nat, height: nat, x: nat, y: nat,
                                             step: nat, s: string, font: seq<byte>, j: nat)
    requires |fb| == BufLen(NumPages(height), width)
    requires |font| >= FONT_GLYPHS * GLYPH_WIDTH
    requires j < |fb| && j < GlyphAt(width, x, y)
    ensures Drawn(fb, width, height, x, y, step, s, font)[j] == fb[j]
    decreases |s|
  {
    if s != [] {
      PutGlyphKeepsEarlier(fb, width, height, x, y, s[0], font, j);
      DrawnKeepsEarlier(PutGlyph(fb, width, height, x, y, s[0], font), width, height,
                        x + step, y, step, s[1..], font, j);
    }
  }

  /** With a step of at least one glyph width (a scale of at least 1), the
      glyph of every on-screen character is intact once the whole string is
      drawn: later glyphs never overlap it. */
  lemma DrawnGlyphVisible(fb: seq<byte>, width: nat, height: nat, x: nat, y: nat,
                          step: nat, s: string, font: seq<byte>, k: nat, i: nat)
    requires |fb| == BufLen(NumPages(height), width)
    requires |font| >= FONT_GLYPHS * GLYPH_WIDTH
    requires GLYPH_WIDTH <= step && k < |s| && i < GLYPH_WIDTH
    requires OnScreen(width, height, Column(x, step, k), y)
    ensures GlyphAt(width, Column(x, step, k), y) + i < |fb|
    ensures Drawn(fb, width, height, x, y, step, s, font)[GlyphAt(width, Column(x, step, k), y) + i]
            == font[GlyphIndex(s[k]) * GLYPH_WIDTH + i]
  {
    var before := Drawn(fb, width, height, x, y, step, s[..k], font);
    var col := Column(x, step, k);
    assert s[k..][0] == s[k];
    DrawnFirstGlyphVisible(before, width, height, col, y, step, s[k..], font, i);
    DrawnSplitAt(fb, width, height, x, y, step, s, font, k, GlyphAt(width, col, y) + i);
  }

  /** `DrawnSplit` at one byte of the framebuffer. */
  lemma DrawnSplitAt(fb: seq<byte>, width: nat, height: nat, x: nat, y: nat,
                     step: nat, s: string, font: seq<byte>, k: nat, j: nat)
    requires |fb| == BufLen(NumPages(height), width)
    requires |font| >= FONT_GLYPHS * GLYPH_WIDTH
    requires k <= |s| && j < |fb|
    ensures Drawn(fb, width, height, x, y, step, s, font)[j]
         == Drawn(Drawn(fb, width, height, x, y, step, s[..k], font), width, height,
                  Column(x, step, k), y, step, s[k..], font)[j]
  {
    DrawnSplit(fb, width, height, x, y, step, s, font, k);
  }

  /** Drawing a string is drawing its first k characters, then the rest from
      the column of character k. */
  lemma {:induction false} DrawnSplit(fb: seq<byte>, width: nat, height: nat, x: nat, y: nat,
                                      step: nat, s: string, font: seq<byte>, k: nat)
    requires |fb| == BufLen(NumPages(height), width)
    requires |font| >= FONT_GLYPHS * GLYPH_WIDTH
    requires k <= |s|
    ensures Drawn(fb, width, height, x, y, step, s, font)
         == Drawn(Drawn(fb, width, height, x, y, step, s[..k], font), width, height,
                  Column(x, step, k), y, step, s[k..], font)
    decreases k
  {
    if k == 0 {
      assert s[k..] == s;
    } else {
      var next := PutGlyph(fb, width, height, x, y, s[0], font);
      DrawnSplit(next, width, height, x + step, y, step, s[1..], font, k - 1);
      assert s[1..][..k - 1] == s[..k][1..];
      assert s[1..][k - 1..] == s[k..];
    }
  }

  /** Column of character k of a string drawn from column `x`: `step`
      columns further right per character. */
  function Column(x: nat, step: nat, k: nat): nat
    decreases k
  {
    if k == 0 then x else Column(x + step, step, k - 1)
  }

  /** The column of character k is x + step*k. */
  lemma {:induction false} ColumnFormula(x: nat, step: nat, k: nat)
    ensures Column(x, step, k) == x + step * k
    decreases k
  {
    if k > 0 {
      ColumnFormula(x + step, step, k - 1);
      assert step * k == step + step * (k - 1);
    }
  }

  /** The first character of the string, when on screen, keeps its glyph. */
  lemma DrawnFirstGlyphVisible(fb: seq<byte>, width: nat, height: nat, x: nat, y: nat,
                               step: nat, s: string, font: seq<byte>, i: nat)
    requires |fb| == BufLen(NumPages(height), width)
    requires |font| >= FONT_GLYPHS * GLYPH_WIDTH
    requires GLYPH_WIDTH <= step && s != [] && i < GLYPH_WIDTH
    requires OnScreen(width, height, x, y)
    ensures GlyphAt(width, x, y) + i < |fb|
    ensures Drawn(fb, width, height, x, y, step, s, font)[GlyphAt(width, x, y) + i]
            == font[GlyphIndex(s[0]) * GLYPH_WIDTH + i]
  {
    PutGlyphWritesCell(fb, width, height, x, y, s[0], font, i);
    var next := PutGlyph(fb, width, height, x, y, s[0], font);
    assert GlyphAt(width, x + step, y) == GlyphAt(width, x, y) + step;
    DrawnKeepsEarlier(next, width, height, x + step, y, step, s[1..], font, GlyphAt(width, x, y) + i);
  }

  /** Drawing an on-screen glyph puts its byte `i` at offset `i` of the cell. */
  lemma PutGlyphWritesCell(fb: seq<byte>, width: nat, height: nat, x: nat, y: nat, ch: char,
                           font: seq<byte>, i: nat)
    requires |fb| == BufLen(NumPages(height), width)
    requires |font| >= FONT_GLYPHS * GLYPH_WIDTH
    requires OnScreen(width, height, x, y) && i < GLYPH_WIDTH
    ensures GlyphAt(width, x, y) + i < |fb|
    ensures PutGlyph(fb, width, height, x, y, ch, font)[GlyphAt(width, x, y) + i]
            == font[GlyphIndex(ch) * GLYPH_WIDTH + i]
  {
    PutGlyphCells(fb, width, height, x, y, ch, font);
  }

  /** Drawing a glyph leaves every byte before its cell alone. */
  lemma PutGlyphKeepsEarlier(fb: seq<byte>, width: nat, height: nat, x: nat, y: nat, ch: char,
                             font: seq<byte>, idx: nat)
    requires |fb| == BufLen(NumPages(height), width)
    requires |font| >= FONT_GLYPHS * GLYPH_WIDTH
    requires idx < |fb| && idx < GlyphAt(width, x, y)
    ensures PutGlyph(fb, width, height, x, y, ch, font)[idx] == fb[idx]
  {
    if OnScreen(width, height, x, y) {
      PutGlyphCells(fb, width, height, x, y, ch, font);
    }
  }

  // ---------------------------------------------------------------------
  // The display
  // ---------------------------------------------------------------------

  /** Capacity of the command array in `ssd1306_config` as written. */
  const CONFIG_CMDS_AS_WRITTEN: nat := 18

  /** Capacity the command array of `ssd1306_config` needs. */
  const CONFIG_CMDS_LEN: nat := 21

  /** The configuration commands sent before the display is switched on. */
  function ConfigCommands(height: byte): (cmds: seq<byte>)
    ensures |cmds| == CONFIG_CMDS_LEN
    ensures cmds[0] == SSD1306_SET_DISP && cmds[|cmds| - 1] == SSD1306_SET_ENTIRE_ON
  {
    [SSD1306_SET_DISP, SSD1306_SET_MEM_MODE, 0x00, SSD1306_SET_DISP_START_LINE,
     Or8(SSD1306_SET_SEG_REMAP, 0x01), SSD1306_SET_MUX_RATIO, Wrap8(height - 1),
     Or8(SSD1306_SET_COM_OUT_DIR, 0x08), SSD1306_SET_DISP_OFFSET, 0x00,
     SSD1306_SET_COM_PIN_CFG, if height == 32 then 0x02 else 0x12,
     SSD1306_SET_DISP_CLK_DIV, 0x80, SSD1306_SET_PRECHARGE, 0xF1,
     SSD1306_SET_VCOM_DESEL, 0x30, SSD1306_SET_CONTRAST, 0xFF, SSD1306_SET_ENTIRE_ON]
  }

  /** What the controller receives from `ssd1306_config`, byte for byte: the
      multiplex ratio is height-1 (mod 256) and the COM pin setting is 0x02
      only for a 32-pixel-high panel; the display is switched on last. */
  lemma ConfigStream(height: byte)
    ensures CommandStream(CmdWrites(ConfigCommands(height) + [Or8(SSD1306_SET_DISP, 0x01)]))
         == Some([0xAE, 0x20, 0x00, 0x40, 0xA1, 0xA8, Wrap8(height - 1), 0xC8, 0xD3, 0x00,
                  0xDA, if height == 32 then 0x02 else 0x12, 0xD5, 0x80, 0xD9, 0xF1,
                  0xDB, 0x30, 0x81, 0xFF, 0xA4, 0xAF])
  {
    OpcodeBits();
    assert ConfigCommands(height) + [Or8(SSD1306_SET_DISP, 0x01)]
        == [0xAE, 0x20, 0x00, 0x40, 0xA1, 0xA8, Wrap8(height - 1), 0xC8, 0xD3, 0x00,
            0xDA, if height == 32 then 0x02 else 0x12, 0xD5, 0x80, 0xD9, 0xF1,
            0xDB, 0x30, 0x81, 0xFF, 0xA4, 0xAF];
    CommandStreamRoundTrip(ConfigCommands(height) + [Or8(SSD1306_SET_DISP, 0x01)]);
  }

  /** `ssd1306_config` as written fills 21 entries of an 18-entry array. */
  lemma ConfigOverflowsCmdArray(height: byte)
    ensures |ConfigCommands(height)| == CONFIG_CMDS_LEN == CONFIG_CMDS_AS_WRITTEN + 3
  {
  }

  function Zeros(n: nat): (z: seq<byte>)
    ensures |z| == n && forall i :: 0 <= i < n ==> z[i] == 0
  {
    seq(n, _ => 0)
  }

  /** The framebuffer after `ssd1306_clear`: pixels zero, control byte kept. */
  function Cleared(fb: seq<byte>): (r: seq<byte>)
    requires |fb| >= 1
    ensures |r| == |fb| && r[0] == fb[0]
    ensures forall i :: 1 <= i < |r| ==> r[i] == 0
  {
    [fb[0]] + Zeros(|fb| - 1)
  }

  /** Clearing twice is clearing once. */
  lemma ClearIdempotent(fb: seq<byte>)
    requires |fb| >= 1
    ensures Cleared(Cleared(fb)) == Cleared(fb)
  {
  }

  /** The writes of `ssd1306_show`: the whole column and page range, then
      every byte after the control byte as one data transfer. */
  function ShowWrites(width: byte, pages: byte, fb: seq<byte>, allocOk: bool): (ws: seq<I2cWrite>)
    requires |fb| >= 1
    ensures |ws| == if allocOk then 7 else 6
    ensures CommandStream(ws[..6]) == Some([SSD1306_SET_COL_ADDR, 0, Wrap8(width - 1), SSD1306_SET_PAGE_ADDR, 0, Wrap8(pages - 1)])
    ensures allocOk ==> Decode(ws[6]) == Data(fb[1..])
  {
    CommandStreamRoundTrip([SSD1306_SET_COL_ADDR, 0, Wrap8(width - 1), SSD1306_SET_PAGE_ADDR, 0, Wrap8(pages - 1)]);
    DecodeFraming(0, fb[1..]);
    assert (CmdWrites([SSD1306_SET_COL_ADDR, 0, Wrap8(width - 1), SSD1306_SET_PAGE_ADDR, 0, Wrap8(pages - 1)])
      + (if allocOk then [DataWrite(fb[1..])] else []))[..6]
      == CmdWrites([SSD1306_SET_COL_ADDR, 0, Wrap8(width - 1), SSD1306_SET_PAGE_ADDR, 0, Wrap8(pages - 1)]);
    CmdWrites([SSD1306_SET_COL_ADDR, 0, Wrap8(width - 1), SSD1306_SET_PAGE_ADDR, 0, Wrap8(pages - 1)])
    + (if allocOk then [DataWrite(fb[1..])] else [])
  }

  /** Show is a render of the full-screen area, and because byte 0 of the
      framebuffer is the data control byte the transfer is the framebuffer
      verbatim. */
  lemma ShowIsFullRender(width: byte, pages: byte, fb: seq<byte>)
    requires 1 <= width && 1 <= pages
    requires |fb| == BufLen(pages, width) && fb[0] == SSD1306_CONTROL_DATA
    ensures ShowWrites(width, pages, fb, true)
         == RenderWrites(0, width - 1, 0, pages - 1, fb[1..1 + AreaLen(0, width - 1, 0, pages - 1)], true)
    ensures DataWrite(fb[1..]).bytes == fb
  {
    FullAreaIsFramebuffer(width, pages);
    assert fb[1..1 + AreaLen(0, width - 1, 0, pages - 1)] == fb[1..];
    assert [fb[0]] + fb[1..] == fb;
  }

  /** The first half of `ssd1306_config`: fill the local command array
      with a running index. The array here (a fixed-length sequence) has room
      for all 21 bytes. */
  method FillConfigCommands(h: byte) returns (cmds: seq<byte>, i: nat)
    ensures |cmds| == CONFIG_CMDS_LEN && i <= |cmds|
    ensures cmds[..i] == ConfigCommands(h)
  {
    cmds, i := FillConfigHead(h);
    cmds, i := FillConfigTail(h, cmds, i);
  }

  /** Display off through the COM pin configuration. */
  method FillConfigHead(h: byte) returns (cmds: seq<byte>, i: nat)
    ensures |cmds| == CONFIG_CMDS_LEN && i == 11
    ensures forall j :: 0 <= j < i ==> cmds[j] == ConfigCommands(h)[j]
  {
    cmds := seq(CONFIG_CMDS_LEN, _ => 0);
    i := 0;
    cmds := cmds[i := SSD1306_SET_DISP]; i := i + 1;
    cmds := cmds[i := SSD1306_SET_MEM_MODE]; i := i + 1;
    cmds := cmds[i := 0x00]; i := i + 1;
    cmds := cmds[i := SSD1306_SET_DISP_START_LINE]; i := i + 1;
    cmds := cmds[i := Or8(SSD1306_SET_SEG_REMAP, 0x01)]; i := i + 1;
    cmds := cmds[i := SSD1306_SET_MUX_RATIO]; i := i + 1;
    cmds := cmds[i := Wrap8(h - 1)]; i := i + 1;
    cmds := cmds[i := Or8(SSD1306_SET_COM_OUT_DIR, 0x08)]; i := i + 1;
    cmds := cmds[i := SSD1306_SET_DISP_OFFSET]; i := i + 1;
    cmds := cmds[i := 0x00]; i := i + 1;
    cmds := cmds[i := SSD1306_SET_COM_PIN_CFG]; i := i + 1;
  }

  /** COM pin value through entire-display-on, continuing at index 11. */
  method FillConfigTail(h: byte, cmds0: seq<byte>, i0: nat) returns (cmds: seq<byte>, i: nat)
    requires |cmds0| == CONFIG_CMDS_LEN && i0 == 11
    requires forall j :: 0 <= j < i0 ==> cmds0[j] == ConfigCommands(h)[j]
    ensures |cmds| == CONFIG_CMDS_LEN && i == 21
    ensures cmds[..i] == ConfigCommands(h)
  {
    cmds, i := cmds0, i0;
    cmds := cmds[i := if h == 32 then 0x02 else 0x12]; i := i + 1;
    cmds := cmds[i := SSD1306_SET_DISP_CLK_DIV]; i := i + 1;
    cmds := cmds[i := 0x80]; i := i + 1;
    cmds := cmds[i := SSD1306_SET_PRECHARGE]; i := i + 1;
    cmds := cmds[i := 0xF1]; i := i + 1;
    cmds := cmds[i := SSD1306_SET_VCOM_DESEL]; i := i + 1;
    cmds := cmds[i := 0x30]; i := i + 1;
    cmds := cmds[i := SSD1306_SET_CONTRAST]; i := i + 1;
    cmds := cmds[i := 0xFF]; i := i + 1;
    cmds := cmds[i := SSD1306_SET_ENTIRE_ON]; i := i + 1;
  }

  /** `ssd1306_t` with the fields the driver uses. */
  class Display {
    var width: byte
    var height: byte
    var pages: byte
    var bufsize: nat
    var ramBuffer: array?<byte>

    ghost predicate Valid()
      reads this, ramBuffer
    {
      && ramBuffer != null
      && pages == NumPages(height)
      && bufsize == BufLen(pages, width)
      && ramBuffer.Length == bufsize
      && ramBuffer[0] == SSD1306_CONTROL_DATA
    }

    /** `ssd1306_config`: the configuration commands, then display on. */
    method Config(bus: I2cBus)
      modifies bus
      ensures bus.writes == old(bus.writes) + CmdWrites(ConfigCommands(height) + [Or8(SSD1306_SET_DISP, 0x01)])
    {
      var cmds, i := FillConfigCommands(height);
      SendCmdList(bus, cmds[..i]);
      SendCmd(bus, Or8(SSD1306_SET_DISP, 0x01));
      assert CmdWrites(ConfigCommands(height) + [Or8(SSD1306_SET_DISP, 0x01)])
          == CmdWrites(ConfigCommands(height)) + [CmdWrite(Or8(SSD1306_SET_DISP, 0x01))];
    }

    /** `ssd1306_clear`: zero every byte after the control byte; nothing is sent. */
    method Clear()
      requires Valid()
      modifies ramBuffer
      ensures Valid()
      ensures ramBuffer[..] == Cleared(old(ramBuffer[..]))
    {
      var i := 1;
      while i < bufsize
        invariant 1 <= i <= bufsize
        invariant ramBuffer[0] == old(ramBuffer[0])
        invariant forall j :: 1 <= j < i ==> ramBuffer[j] == 0
        invariant forall j :: i <= j < bufsize ==> ramBuffer[j] == old(ramBuffer[j])
      {
        ramBuffer[i] := 0;
        i := i + 1;
      }
    }

    /** `ssd1306_show`: transmit the whole framebuffer; it is left unchanged. */
    method Show(bus: I2cBus, allocOk: bool)
      requires Valid()
      modifies bus
      ensures bus.writes == old(bus.writes) + ShowWrites(width, pages, ramBuffer[..], allocOk)
    {
      var fb := ramBuffer[..];
      var cmds := [SSD1306_SET_COL_ADDR, 0, Wrap8(width - 1), SSD1306_SET_PAGE_ADDR, 0, Wrap8(pages - 1)];
      var data := fb[1..];
      SendCmdList(bus, cmds);
      SendBuf(bus, data, |data|, allocOk);
      assert data[..|data|] == data;
      assert bus.writes == old(bus.writes) + ShowWrites(width, pages, fb, allocOk);
    }

    /** `WriteChar` on non-negative coordinates: the glyph of `ch` replaces
        the 8 bytes of its cell when the cell is on screen. */
    method WriteChar(x: nat, y: nat, ch: char, font: seq<byte>)
      requires Valid()
      requires |font| >= FONT_GLYPHS * GLYPH_WIDTH
      modifies ramBuffer
      ensures Valid()
      ensures ramBuffer[..] == PutGlyph(old(ramBuffer[..]), width, height, x, y, ch, font)
    {
      if x > width - 8 || y > height - 8 {
        return;
      }
      var row := y / 8;
      var c := ToUpper(ch);
      var idx;
      if 'A' <= c <= 'Z' {
        idx := c as int - 'A' as int + 1;
      } else if '0' <= c <= '9' {
        idx := c as int - '0' as int + 27;
      } else {
        idx := 0;
      }
      GlyphCellInBounds(width, height, x, y);
      assert idx == GlyphIndex(ch);
      var fbIdx := row * width + x + 1;
      assert fbIdx == GlyphAt(width, x, y);
      CopyGlyph(ramBuffer, fbIdx, font, idx);
    }

    /** `ssd1306_draw_string` on non-negative coordinates: character k is
        drawn at (x + 8*scale*k, y); `scale` spaces the glyphs and never
        changes their size. */
    method DrawString(x: nat, y: nat, scale: nat, s: string, font: seq<byte>)
      requires Valid()
      requires |font| >= FONT_GLYPHS * GLYPH_WIDTH
      requires '\0' !in s
      modifies ramBuffer
      ensures Valid()
      ensures ramBuffer[..] == Drawn(old(ramBuffer[..]), width, height, x, y, GLYPH_WIDTH * scale, s, font)
    {
      var step := 8 * scale;
      ghost var goal := Drawn(ramBuffer[..], width, height, x, y, step, s, font);
      var cx: nat := x;
      var k := 0;
      while k < |s|
        invariant 0 <= k <= |s|
        invariant Valid()
        invariant Drawn(ramBuffer[..], width, height, cx, y, step, s[k..], font) == goal
      {
        ghost var before := ramBuffer[..];
        WriteChar(cx, y, s[k], font);
        DrawnStep(before, ramBuffer[..], width, height, cx, y, step, s, font, k);
        cx := cx + step;
        k := k + 1;
      }
    }
  }

  /** `ssd1306_init_bm`: fails on a null display or a failed allocation;
      otherwise sets the geometry and allocates a zeroed framebuffer whose
      byte 0 is the data control byte. */
  method InitBitmap(p: Display?, width: byte, height: byte, allocOk: bool) returns (ok: bool)
    modifies p
    ensures p == null ==> !ok
    ensures ok <==> p != null && allocOk
    ensures p != null ==> p.width == width && p.height == height
    ensures p != null ==> p.pages == NumPages(height) && p.bufsize == BufLen(p.pages, width)
    ensures p != null && !allocOk ==> p.ramBuffer == null
    ensures ok ==> p.Valid() && fresh(p.ramBuffer)
    ensures ok ==> p.ramBuffer[..] == [SSD1306_CONTROL_DATA] + Zeros(p.bufsize - 1)
  {
    if p == null {
      return false;
    }
    p.width := width;
    p.height := height;
    p.pages := height / SSD1306_PAGE_HEIGHT;
    p.bufsize := p.pages * p.width + 1;
    if !allocOk {
      p.ramBuffer := null;
      return false;
    }
    p.ramBuffer := new byte[p.bufsize](_ => 0);
    p.ramBuffer[0] := SSD1306_CONTROL_DATA;
    assert p.ramBuffer[..] == [SSD1306_CONTROL_DATA] + Zeros(p.bufsize - 1);
    return true;
  }

  // ---------------------------------------------------------------------
  // The coordinates as the source passes them
  // ---------------------------------------------------------------------

  /** C's conversion of a `uint32_t` to `int16_t` (two's complement). */
  function ToInt16(v: nat): (r: int)
    ensures -32768 <= r < 32768 && (r - v) % 65536 == 0
  {
    var t := v % 65536;
    if t < 32768 then t else t - 65536
  }

  /** C's `/` on `int`, which truncates toward zero. */
  function CDiv(a: int, b: nat): (r: int)
    requires b > 0
    ensures (a >= 0 ==> r >= 0) && (a <= 0 ==> r <= 0)
    ensures (if r >= 0 then r else -r) == (if a >= 0 then a else -a) / b
  {
    if a >= 0 then a / b else -((-a) / b)
  }

  /** Truncation toward zero: the quotient times the divisor never passes
      `a`, and the next quotient away from zero would. */
  lemma CDivTruncates(a: int, b: nat)
    requires b > 0
    ensures a >= 0 ==> CDiv(a, b) * b <= a < (CDiv(a, b) + 1) * b
    ensures a < 0 ==> (CDiv(a, b) - 1) * b < a <= CDiv(a, b) * b
  {
    if a >= 0 {
      FloorDivBounds(a, b);
    } else {
      var q := (-a) / b;
      FloorDivBounds(-a, b);
      assert CDiv(a, b) * b == -(q * b) && (CDiv(a, b) - 1) * b == -((q + 1) * b);
    }
  }

  lemma FloorDivBounds(n: nat, b: nat)
    requires b > 0
    ensures (n / b) * b <= n < (n / b) * b + b && (n / b + 1) * b == (n / b) * b + b
  {
  }

  /** Where `WriteChar` as written starts the glyph, given the `uint32_t`
      coordinates `ssd1306_draw_string` passes it; none when its bounds test
      rejects them. */
  function AsWrittenGlyphStart(width: nat, height: nat, x32: nat, y32: nat): (r: Option<int>)
    ensures x32 < 32768 && y32 < 32768 ==> (r.Some? <==> OnScreen(width, height, x32, y32))
    ensures x32 < 32768 && y32 < 32768 && r.Some? ==> r.value == GlyphAt(width, x32, y32)
  {
    var x := ToInt16(x32);
    var y := ToInt16(y32);
    if x > width - 8 || y > height - 8 then None
    else Some(CDiv(y, 8) * width + x + 1)
  }

  /** x = 65535 becomes -1 as an `int16_t`, passes the bounds test, and the
      glyph overwrites the control byte; x = 65528 starts 7 bytes before the
      buffer. */
  lemma WrappedColumnEscapesBuffer()
    ensures AsWrittenGlyphStart(SSD1306_WIDTH, SSD1306_HEIGHT, 65535, 0) == Some(0)
    ensures AsWrittenGlyphStart(SSD1306_WIDTH, SSD1306_HEIGHT, 65528, 0) == Some(-7)
  {
    assert ToInt16(0) == 0 && CDiv(0, 8) == 0;
    assert ToInt16(65535) == -1 && ToInt16(65528) == -8;
  }
}
